=== FILE: README.md ===
# python-glib-log-bridge in Dafny

A model of the two directions of `glib_log_bridge`, with proofs about it.

- **Python → GLib** (`python2glib.py`). A Python `logging.LogRecord` becomes GLib structured-log fields. `LoggerHandler` builds them as a dict of `GLib.Variant`s for `GLib.log_variant`. `GLibWriterHandler` builds them as `GLogField` descriptors for a GLib writer function. This covers:
  - the level map;
  - the log domain;
  - the four field builders and their merge with `record.glib_fields`;
  - the two encoders;
  - both `emit`s.
- **GLib → Python** (`glib2python.py`). `GLibToPythonLogger` turns a GLib log call back into a Python record. This covers:
  - reading the descriptors into a dict;
  - the logger name;
  - the call site;
  - the message;
  - the level, from the GLib flag bits or journald's PRIORITY field;
  - the record;
  - the two GLib entry points, the writer function and the old-style log function.

The round trip is also modelled: descriptors written by `GLibWriterHandler`, read back by `glibToPythonLogWriterFunc`.

Modules, one per file:

| file | module | contents |
|---|---|---|
| `wrappers.dfy` | `Wrappers` | `Option` and `Result` |
| `names.dfy` | `FieldNames` | field names. The bridge's own names are constructors; every other key is `Custom`. `Canonical` says a name has its one representation. |
| `dict.dfy` | `Dict` | Python's insertion-ordered `dict`: the key order together with the contents |
| `utf8.dfy` | `Utf8` | UTF-8 encoding and strict and lossy decoding; the C-string reads and writes |
| `text.dfy` | `Text` | `str.replace`, `str(int)`, `int(str)` and `int(bytes)` |
| `fields.dfy` | `Fields` | field values, variants and `GLogField` descriptors |
| `levels.dfy` | `Levels` | GLib level flags, the Python levels and the three level tables |
| `python2glib.dfy` | `PythonToGLib` | the Python → GLib handlers |
| `glib2python.dfy` | `GLibToPython` | the GLib → Python logger |
| `roundtrip.dfy` | `RoundTrip` | one direction feeding the other |

Python's dynamic values are a datatype, `FieldValue`:
- `str`, `bytes` and `int` have their own cases;
- a `GLib.Variant` is `Var`, which carries its variant;
- `None` is `NoneValue`;
- any other object is `Other`.

`Var` and `Other` carry the text `str()` gives for them. The builders fill a dict in place, so they are methods. What they produce is stated against reference functions: `ComputedValue`, `MergedValue` and `WriterValue` give the value per key; `ComputedKeys`, `MergedKeys` and `WriterKeys` give the key order.

## Model

| member | source | states |
|---|---|---|
| Levels.LevelToGLib | glib_log_bridge/python2glib.py:65-92 | WARNING and above (ERROR and CRITICAL too) go to LEVEL_WARNING. INFO up to WARNING goes to LEVEL_INFO, DEBUG up to INFO to LEVEL_DEBUG. Anything below DEBUG gets the default. |
| Levels.LevelToGLibNeverFatal | glib_log_bridge/python2glib.py:65-73 | no Python level is ever sent as LEVEL_ERROR, at which GLib always aborts, or as LEVEL_CRITICAL, at which it aborts when criticals are made fatal |
| Levels.LevelToGLibMonotone | glib_log_bridge/python2glib.py:78-92 | a more severe Python level never gets a less severe GLib level |
| Levels.FlagsToLevelLowestBit | glib_log_bridge/glib2python.py:126-133 | the GLib-to-Python scan over the masked flags yields the Python level of the most severe level bit that is set, or the default when none is set |
| Levels.LevelRoundTrip | glib_log_bridge/glib2python.py:162-169 | a level sent to GLib by the Python side comes back as the level of its band: WARNING and above as WARNING, INFO as INFO, the rest as DEBUG |
| Levels.PriorityMapAsWrittenNotMonotone | glib_log_bridge/glib2python.py:136-145 | in the table as written, priority 4 (warning) is more severe than priority 3 (error), and priority 1 (alert) less severe than priority 2 (critical) |
| Levels.PriorityMapMonotone | glib_log_bridge/glib2python.py:136-145 | the corrected table has the same eight keys and differs only at "1" and "4". A less severe priority never gives a more severe Python level. |
| PythonToGLib.LogDomain | glib_log_bridge/python2glib.py:94-109 | the domain starts with the prefix and ends with the suffix. It holds no '.' when the replacement, prefix and suffix hold none. With a one-character replacement, the part between prefix and suffix is the name with each '.' swapped for that character. |
| RoundTrip.LoggerNameInvertsDomain | glib_log_bridge/glib2python.py:82-95 | with default settings on both sides, the logger name read from GLIB_DOMAIN is the record's name again, for names without '-' |
| RoundTrip.LogFuncInvertsDomain | glib_log_bridge/glib2python.py:200-211 | the old-style log function, given the domain the Python side computes for a record (default settings, names without '-'), dispatches a record with the original logger name, the given message and the level of the flags |
| PythonToGLib.ComputedKeys | glib_log_bridge/python2glib.py:235-263 | the computed key order is duplicate-free and lists exactly the keys with a computed value. The exception keys have a value only with exception info. |
| PythonToGLib.FieldsBasic | glib_log_bridge/python2glib.py:188-211 | MESSAGE, CODE_FUNC, CODE_FILE and CODE_LINE get the record's values. Every other key keeps its value, and a well-formed dict stays well formed. New keys go last, in assignment order. |
| PythonToGLib.FieldsMetadata | glib_log_bridge/python2glib.py:141-167 | the five PYTHON_ metadata keys get the record's values. Nothing else changes, and new keys go last in order. |
| PythonToGLib.FieldsException | glib_log_bridge/python2glib.py:111-139 | without exception info the dict is unchanged. With it, PYTHON_EXC gets the type's qualified name and PYTHON_EXC_MESSAGE the exception's text; nothing else changes. |
| PythonToGLib.ExcInfoAsWritten | glib_log_bridge/python2glib.py:131-133 | the exception read from `exc_info` as written: `None` gives none, a triple gives its exception, and any other object (a falsy `False` included) raises on unpacking |
| PythonToGLib.ExcInfoIntended | glib_log_bridge/python2glib.py:131-133 | the exception read as logging's formatter reads `exc_info`: present exactly for a triple |
| PythonToGLib.ExcInfoFalseRaises | glib_log_bridge/python2glib.py:131-133 | `exc_info=False` raises as written, while under the intended reading the record gets no exception fields |
| PythonToGLib.ExcInfoIntendedFields | glib_log_bridge/python2glib.py:131-137 | the intended reading equals the code's wherever the code does not raise, and the record gets PYTHON_EXC and PYTHON_EXC_MESSAGE exactly for a triple, with its type name and text |
| PythonToGLib.FieldsRecord | glib_log_bridge/python2glib.py:169-186 | when `glib_fields` is a dict, its keys win and new ones are appended in its order; otherwise the dict is unchanged |
| PythonToGLib.RequiredFields | glib_log_bridge/python2glib.py:254-257 | the basic builder then the metadata builder on an empty dict. The result holds exactly the nine required keys, in assignment order. |
| PythonToGLib.ComputedFields | glib_log_bridge/python2glib.py:254-258 | the three builders on an empty dict give exactly the computed values, in the computed key order |
| PythonToGLib.MergedKeysValues | glib_log_bridge/python2glib.py:259-263 | after the `glib_fields` merge, the key order is duplicate-free and lists exactly the keys that have a merged value |
| PythonToGLib.GetFields | glib_log_bridge/python2glib.py:213-263 | every key holds its merged value, and `glib_fields` overrides the computed value. The required keys are always present, and the order is the computed keys followed by the new `glib_fields` keys. |
| PythonToGLib.WriterFields | glib_log_bridge/python2glib.py:358-378 | GLIB_DOMAIN is added, holding the domain, only when the merged fields lack it. Every other key keeps its merged value, and the new key goes last. |
| PythonToGLib.WriterKeysValues | glib_log_bridge/python2glib.py:375-378 | the writer's key order lists exactly the keys with a writer value |
| PythonToGLib.WriterKeysCanonical | glib_log_bridge/python2glib.py:375-378 | every key the writer lists is in its one representation |
| PythonToGLib.NulWarnings | glib_log_bridge/python2glib.py:292-296 | every warned string holds NUL, every stringified value that holds NUL is warned about, and nothing is warned when no value holds NUL |
| PythonToGLib.ConvertFieldsDict | glib_log_bridge/python2glib.py:265-298 | the same keys in the same order. A variant stays itself, `bytes` become a byte-array variant, anything else becomes the string variant of its `str()`, never cut at NUL. Exactly the strings with NUL are warned about. |
| PythonToGLib.Emit | glib_log_bridge/python2glib.py:300-317 | the domain and level as computed, never a fatal level. MESSAGE is always present, so the missing-MESSAGE report never fires. The variant dict holds the converted merged fields in merged order. Every NUL warning is the `str()` of a merged value that holds NUL. |
| PythonToGLib.ConvertField | glib_log_bridge/python2glib.py:388-403 | a `str` becomes a NUL-terminated UTF-8 buffer with length -1. `bytes` are passed as themselves with their length. Anything else, a `GLib.Variant` included, becomes the UTF-8 bytes of its `str()` with their length. The key is the name's spelling. |
| PythonToGLib.ConvertFields | glib_log_bridge/python2glib.py:380-405 | one descriptor per dict entry, in the dict's order |
| PythonToGLib.GetLogFields | glib_log_bridge/python2glib.py:407-415 | the descriptors of the writer's fields, in the writer's order, under pairwise distinct key strings |
| PythonToGLib.WriterEmit | glib_log_bridge/python2glib.py:417-430 | the computed non-fatal level, and one readable descriptor per writer key in the writer's order: the `_convert_fields` descriptor of that key's writer value, under pairwise distinct key strings, among them MESSAGE and GLIB_DOMAIN |
| FieldNames.NameOfSpelling | glib_log_bridge/python2glib.py:399 | reading a canonical name's spelling back gives the same name, so distinct keys have distinct spellings |
| GLibToPython.DecodeField | glib_log_bridge/glib2python.py:63-78 | a null value or zero length gives empty bytes. For length -1: a null C string skips the key; otherwise it is text exactly when the bytes before the first NUL are UTF-8, else those raw bytes. A positive length gives that many bytes. A length below -1, or a positive length on `None`, raises. |
| GLibToPython.FieldsToDict | glib_log_bridge/glib2python.py:47-80 | on success the dict holds, for each key, the value of its last readable descriptor (a later duplicate wins), and its keys are canonical. It fails exactly when some descriptor raises, with the first such error. |
| GLibToPython.FirstErrorSnoc | glib_log_bridge/glib2python.py:63-79 | the first error of a longer descriptor list is the earlier one if there was one, else the new descriptor's |
| GLibToPython.LaterFieldWins | glib_log_bridge/glib2python.py:79 | a descriptor appended for a key overrides every earlier value of that key |
| GLibToPython.LoggerName | glib_log_bridge/glib2python.py:82-95 | prefix, then GLIB_DOMAIN with '-' turned into '.', then suffix; prefix and suffix alone when the field is absent. The result starts with the prefix and holds no '-' when prefix and suffix hold none. `bytes` raise TypeError and other objects AttributeError. |
| GLibToPython.ToInt | glib_log_bridge/glib2python.py:109-110 | `int()` of an `int` is itself. A `str` or `bytes` of decimal digits gives its value, and anything else in them raises ValueError. Every other value of the model (`None`, a variant, an `Other` object) raises TypeError. |
| Text.ParseIntToString | glib_log_bridge/glib2python.py:110 | `int(str(n)) == n` for every integer (no digit limit; see "## Left out") |
| Text.ParseIntBytesToString | glib_log_bridge/glib2python.py:110 | `int(str(n).encode()) == n` for every integer (no digit limit; see "## Left out") |
| GLibToPython.GetCodeLocation | glib_log_bridge/glib2python.py:103-114 | path and function are CODE_PATH and CODE_FUNC as they are. The line number is present exactly when CODE_LINE is present and not `None`, converted by `int()`. That conversion's failure is the only failure, and its error is the one raised. |
| GLibToPython.LineNumber | glib_log_bridge/glib2python.py:110-112 | a missing CODE_LINE or one holding `None` gives no line number and no error; any other value gives `int()` of it, or its error |
| GLibToPython.GetMessage | glib_log_bridge/glib2python.py:116-124 | MESSAGE, or `''` when absent. `bytes` become text: exactly their strict decoding when that succeeds, and text holding U+FFFD when it fails. Any other object is passed on. |
| Utf8.DecodeReplaceAgrees | glib_log_bridge/glib2python.py:122-123 | on valid UTF-8, lossy decoding equals strict decoding |
| GLibToPython.LevelFromTable | glib_log_bridge/glib2python.py:152-169 | with `use_priority_field`, a PRIORITY string in the given table decides. Otherwise, or when PRIORITY is missing, not a string or not in the table, the most severe level bit among the masked flags decides, or the default when none is set. |
| GLibToPython.GetLogLevel | glib_log_bridge/glib2python.py:136-169 | the same, over the PRIORITY table as the code writes it, so "1" gives WARNING and "4" gives CRITICAL |
| GLibToPython.GetLogLevelAsWrittenInverts | glib_log_bridge/glib2python.py:136-161 | with the override on, PRIORITY "4" (warning) gives a more severe level than "3" (err), and "1" (alert) a less severe one than "2" (crit), whatever the flags |
| GLibToPython.GetLogLevelCorrected | glib_log_bridge/glib2python.py:146-169 | the same lookup over the table in syslog order |
| GLibToPython.GetLogLevelCorrectedMonotone | glib_log_bridge/glib2python.py:146-169 | with the corrected table a less severe PRIORITY digit never gives a more severe level, and the level differs from the code's exactly for "1" and "4" |
| GLibToPython.GetLogLevelCorrectedAgrees | glib_log_bridge/glib2python.py:152-169 | the corrected level equals the code's unless the override is on and PRIORITY is "1" or "4" |
| GLibToPython.LevelIgnoresFields | glib_log_bridge/glib2python.py:152-169 | without the PRIORITY override the fields play no part in the level |
| GLibToPython.LevelWithoutPriority | glib_log_bridge/glib2python.py:158-169 | with no PRIORITY field the flags alone decide the level, whatever the settings |
| GLibToPython.GetRecord | glib_log_bridge/glib2python.py:171-198 | the record carries the logger name, level, message, call site and the whole field dict, the last as a factory that keeps the `glib_fields` keyword stores it. It fails exactly when the name or the call site does, with the name's error first. |
| GLibToPython.WriterFunc | glib_log_bridge/glib2python.py:213-232 | HANDLED exactly when the input converts, the record builds and `handle` does not raise. The record is dispatched exactly when conversion and record succeed. A dict input is used as it is, and the record's `glib_fields` is the full dict (under a factory that keeps that keyword). |
| GLibToPython.WriterFuncMapping | glib_log_bridge/glib2python.py:224-229 | on a dict input the dispatched record is the one `_get_record` builds from that dict, when it builds |
| GLibToPython.GLibFieldsAttribute | glib_log_bridge/glib2python.py:186-197 | a record built by logging's stock factory has no `glib_fields` attribute, and one built by a factory that keeps the keyword has it |
| GLibToPython.StockRecordDropsGLibFields | glib_log_bridge/glib2python.py:178-197 | with the stock factory no dispatched record has `glib_fields`, and a dispatched record from the log function's dict shows it |
| GLibToPython.IntendedRecordCarriesFields | glib_log_bridge/glib2python.py:178-197 | as the docstring promises, every dispatched record carries the whole field dict it was built from |
| GLibToPython.LogFunc | glib_log_bridge/glib2python.py:200-211 | the record built from exactly MESSAGE and GLIB_DOMAIN, with no call site. The message is the GLib message, the name is the domain with '-' turned into '.', and the level comes from the flags alone, because the dict has no PRIORITY. A null domain is never dispatched. |
| Utf8.DecodeEncode | glib_log_bridge/glib2python.py:72-73 | strict decoding undoes UTF-8 encoding |
| Utf8.EncodeDecode | glib_log_bridge/glib2python.py:72-73 | bytes that decode strictly are the encoding of their decoding |
| Utf8.DecodeSucceedsIffEncoding | glib_log_bridge/glib2python.py:72-75 | strict decoding succeeds exactly on the encodings of strings |
| Utf8.TakeUntilNulEncode | glib_log_bridge/glib2python.py:69 | reading a C string out of a buffer holding a string's encoding followed by a NUL gives the encoding of the string up to its first NUL |
| Text.ReplaceInverse | glib_log_bridge/glib2python.py:94 | turning '.' into '-' and back restores a string without '-' |
| RoundTrip.DecodeConvertField | glib_log_bridge/python2glib.py:388-403 | a written descriptor read back gives: a NUL-free `str` unchanged and a `str` with NUL cut at it, `bytes` unchanged, anything else the bytes of its `str()` |
| RoundTrip.DecodeDescriptors | glib_log_bridge/glib2python.py:62-80 | descriptors written for distinct canonical keys read back into the dict of their transported values, in the same order |
| RoundTrip.FieldsToDictConvertFields | glib_log_bridge/python2glib.py:380-405 | reading back the descriptors of any well-formed dict gives the same keys, in the same order, with each value transported |
| RoundTrip.ArrivedLocation | glib_log_bridge/glib2python.py:103-114 | with default handler settings, for a record without a `glib_fields` dict, an integer line number comes back as itself, and the path never comes back, because the writer sends CODE_FILE and the reader looks for CODE_PATH |
| RoundTrip.ArrivedRecord | glib_log_bridge/glib2python.py:171-198 | with default settings on both sides, for a record without a `glib_fields` dict and the flags the writer handler sent, the record rebuilt from what arrived has its band's level, the message up to its first NUL, the original name (for names without NUL or '-'), its line number and no path |
| RoundTrip.SendFields | glib_log_bridge/python2glib.py:417-430 | for any handler settings and any record whose `glib_fields` is a well-formed dict or not a dict at all, the descriptors `GLibWriterHandler.emit` passes, read back, is the writer's keys in the writer's order with transported values, at the level the handler computes |
| RoundTrip.EmitConvertsWriterFields | glib_log_bridge/python2glib.py:407-415 | the descriptors `emit` passes are exactly `_convert_fields` of the writer's fields |
| RoundTrip.WriterRoundTrip | glib_log_bridge/glib2python.py:213-232 | the writer handler feeding the writer function, with default settings on both sides. A record with an integer line number is always dispatched, HANDLED unless `handle` raises, and comes back with the properties above. |
| Dict.UpdateKeys | glib_log_bridge/python2glib.py:185 | `update` keeps a dict well formed, keeps its order and appends the other dict's new keys in their order |
| Dict.SetKeys | glib_log_bridge/python2glib.py:377 | assignment keeps a dict well formed; an existing key keeps its place and a new one goes last |

## Left out

- GLib itself is not part of this model. That covers `GLib.log_variant`, the writer function, `GLib.Variant` construction beyond the variant's kind and contents, and GLib's own aborting on fatal levels. The writer function is only named as the receiver of a `WriterCall`.
- `GLibLogHandler` (python2glib.py:454-511) is not part of this model. Its `emit` (python2glib.py:508-511) passes `record.message` (the `getMessage()` text, which only a Formatter sets) to an old-style log-handler function `self.handler`.
- `LoggerHandler.__init__` and `GLibToPythonLogger.__init__` are not modelled, nor logging's own handler setup. Their settings are the `HandlerConfig` and `LoggerConfig` datatypes, with the source's defaults as constants.
- `_get_logger` (glib2python.py:97-101) and `logger.handle(record)` are not modelled, because they go into the logging machinery. Whether `handle` raises is the `handleRaises` parameter.
- `self.format(record)`, `record.getMessage()` and `str()` of arbitrary objects are not computed. They come from the logging machinery or from objects' own methods, so the record carries their results.
- The ctypes keep-alive attribute (`_p2g_value_ctypes`) is not modelled: memory lifetime is not modelled. Memory behind a descriptor is its buffer, and `Readable` is the caller's promise that ctypes may read it.
- Python dicts with keys that are not strings are not modelled. Valid, WellFormed and Canonical state what the Python program always has: a dict order without duplicates, matching its contents, and string keys.
- GLibToPython.GetLogLevel: a PRIORITY value that is not a `str` is treated as not in the table. In Python, `bytes` are not found there either. An unhashable object would raise TypeError, which is not modelled.
- GLibToPython.ToInt: accepts only ASCII digits, optional `_` between digit groups, ASCII whitespace and a sign. Python's `int()` also accepts the other Unicode decimal digits and whitespace. It also converts a `float` (`int(2.5) == 2`), a `bool` and any object with `__int__` or `__index__`. Such objects are `Other` in the model, whose printed text is all it carries, so the model raises TypeError for every `Other`.
- PythonToGLib.FieldsBasic, PythonToGLib.FieldsMetadata, PythonToGLib.FieldsException: the key order is stated only when the assigned keys are new to the dict. That is the only way `_get_fields` calls them; otherwise only the values are stated.
- PythonToGLib.FieldsException: the builders read `LogRecord.excInfo`, which holds the intended reading of `exc_info` (ExcInfoIntended). The TypeError that python2glib.py:133 raises out of `emit` for a falsy `exc_info` other than `None`, such as `False`, is modelled only by ExcInfoAsWritten (see "## Findings"); GetFields, Emit and WriterEmit do not fail for it.
- GLibToPython.GetRecord: the record's `glibFields` is the dict a factory that keeps the `glib_fields` keyword would store. Logging's stock `LogRecord.__init__` accepts `**kwargs` and stores none of them, so with the default factory the record has no `glib_fields` (StockRecordDropsGLibFields, see "## Findings").
- Text.ParseIntToString, Text.ParseIntBytesToString: the integers are unbounded. CPython 3.11 and later, and the 3.7 to 3.10 security releases, raise ValueError when converting between `int` and `str` beyond 4300 digits (the default `sys.set_int_max_str_digits` limit), so `int(str(n)) == n` holds there only below that size.
- RoundTrip.WriterRoundTrip: stated only with the default handler and logger settings (a `replace_module_char` of `_`, for instance, sends `a.b` as `a_b`, and that is the name that comes back) and only for records without a `glib_fields` dict. With one, the fields are arbitrary, and FieldsToDictConvertFields states what survives.
- Thread safety and logging's locks are not modelled, because the model has no concurrency.
- Lone surrogates in a Python `str` are not modelled. A Dafny `char` is a Unicode scalar value, so every model string encodes to UTF-8. In Python, a `str` holding a surrogate raises UnicodeEncodeError out of `value.encode('utf-8')` (python2glib.py:392, 395) and out of `GLib.Variant('s', …)`, and so out of `emit`. A `record.pathname` decoded with surrogateescape is one such `str`.
- GLibToPython.GetCodeLocation: CODE_PATH and CODE_FUNC holding `None` and the fields being absent both stand for Python's `None`, but the model keeps them apart: `Some(NoneValue)` against `None`.

## Findings

| source | as written | input that shows it | evidently intended | confidence | as-written member | corrected member |
|---|---|---|---|---|---|---|
| glib_log_bridge/glib2python.py:136-145 | journald priority "1" (alert) maps to WARNING and "4" (warning) to CRITICAL | PRIORITY "4" with `use_priority_field` gives CRITICAL, more severe than what "3" (error) gives. `GetLogLevel`, and so `GetRecord` and `WriterFunc`, use the table as written. | the syslog order, with "1" to CRITICAL and "4" to WARNING, so a less severe priority never gives a more severe level | not executed | GLibToPython.GetLogLevelAsWrittenInverts | GLibToPython.GetLogLevelCorrectedMonotone |
| glib_log_bridge/python2glib.py:131-133 | any `exc_info` that is not `None` is unpacked as a triple | `logger.info(msg, exc_info=False)` leaves `exc_info` as `False`, and unpacking it raises TypeError out of `emit` | treat a falsy `exc_info` as no exception, as logging's formatter does with `if record.exc_info:` | not executed | PythonToGLib.ExcInfoFalseRaises | PythonToGLib.ExcInfoIntendedFields |
| glib_log_bridge/glib2python.py:178-197 | the dict is passed to the record factory as the keyword `glib_fields=fields` | any record built by logging's default factory: `LogRecord.__init__` ignores `**kwargs`, so the record has no `glib_fields` | the record carries the field dict, as the docstring says, for example by assigning `record.glib_fields = fields` after the factory call | not executed | GLibToPython.StockRecordDropsGLibFields | GLibToPython.IntendedRecordCarriesFields |

=== FILE: dict.dfy ===
/** Python's `dict` keyed by field names: a key maps to one value and
    iteration follows insertion order; assigning to a key that is already
    present keeps its position, a new key goes last. A dict is its key
    order together with its contents. */
module Dict {
  import opened Wrappers
  import opened FieldNames

  datatype Entry<V> = Entry(key: Name, value: V)

  /** A dict as its key order together with its contents. */
  datatype Dict<V> = Dict(order: seq<Name>, contents: map<Name, V>)

  predicate Distinct(s: seq<Name>) {
    forall i, j :: 0 <= i < j < |s| ==> s[i] != s[j]
  }

  /** The order lists every key once and nothing else; every dict Python
      can build satisfies this. */
  predicate Valid<V>(d: Dict<V>) {
    && Distinct(d.order)
    && (forall k :: k in d.order ==> k in d.contents)
    && (forall k :: k in d.contents ==> k in d.order)
  }

  /** `{}`. */
  function Empty<V>(): (r: Dict<V>)
    ensures Valid(r) && |r.order| == 0 && forall k :: k !in r.contents
  {
    Dict([], map[])
  }

  /** The keys in iteration order. */
  function Keys<V>(d: Dict<V>): seq<Name> {
    d.order
  }

  /** `d.get(k)`: the value stored under `k`, if any. */
  function Get<V>(d: Dict<V>, k: Name): Option<V> {
    if k in d.contents then Some(d.contents[k]) else None
  }

  predicate Has<V>(d: Dict<V>, k: Name) {
    k in d.contents
  }

  /** `d.get(k, default)`. */
  function GetOr<V>(d: Dict<V>, k: Name, default: V): V {
    Get(d, k).GetOr(default)
  }

  /** The position of an element of a sequence. */
  function IndexOf(s: seq<Name>, k: Name): (i: nat)
    requires k in s
    ensures i < |s| && s[i] == k
  {
    if s[0] == k then 0 else 1 + IndexOf(s[1..], k)
  }

  /** The items in iteration order. */
  function Items<V>(d: Dict<V>): (s: seq<Entry<V>>)
    requires Valid(d)
    ensures |s| == |Keys(d)|
    ensures forall i :: 0 <= i < |s| ==> s[i].key == Keys(d)[i] && Get(d, s[i].key) == Some(s[i].value)
  {
    seq(|d.order|, i requires 0 <= i < |d.order| => Entry(d.order[i], d.contents[d.order[i]]))
  }

  /** `d[k] = v`: `k` now holds `v`, every other key keeps its value, an
      existing key keeps its position and a new one goes last. */
  function Set<V>(d: Dict<V>, k: Name, v: V): (r: Dict<V>)
    ensures Get(r, k) == Some(v)
    ensures forall k' :: k' != k ==> Get(r, k') == Get(d, k')
  {
    Dict(if k in d.contents then d.order else d.order + [k], d.contents[k := v])
  }

  /** The keys of `s` that `present` lacks, in their order in `s`. */
  function Missing(s: seq<Name>, present: seq<Name>): (r: seq<Name>)
    ensures forall k :: k in r <==> k in s && k !in present
    ensures Distinct(s) ==> Distinct(r)
  {
    if |s| == 0 then []
    else
      var rest := Missing(s[1..], present);
      assert forall i :: 1 <= i < |s| ==> s[1..][i - 1] == s[i];
      if s[0] in present then rest else [s[0]] + rest
  }

  /** `d.update(other)`: the keys of `other` take its values, every other
      key of `d` is unchanged. */
  function Update<V>(d: Dict<V>, other: Dict<V>): (r: Dict<V>)
    ensures forall k :: Get(r, k) == if Has(other, k) then Get(other, k) else Get(d, k)
  {
    Dict(d.order + Missing(other.order, d.order), d.contents + other.contents)
  }

  /** A key is present exactly when it is in the iteration order. */
  lemma HasKeys<V>(d: Dict<V>, k: Name)
    requires Valid(d)
    ensures Has(d, k) <==> k in Keys(d)
  {}

  /** `d[k] = v` keeps a dict well formed; an existing key keeps its
      position and a new one goes last. */
  lemma SetKeys<V>(d: Dict<V>, k: Name, v: V)
    ensures Valid(d) ==> Valid(Set(d, k, v))
    ensures Keys(Set(d, k, v)) == if Has(d, k) then Keys(d) else Keys(d) + [k]
  {}

  /** `d.update(other)` keeps a dict well formed, keeps the order of `d`
      and appends the keys new to `d` in the order of `other`. */
  lemma UpdateKeys<V>(d: Dict<V>, other: Dict<V>)
    ensures Valid(d) && Valid(other) ==> Valid(Update(d, other))
    ensures Keys(Update(d, other)) == Keys(d) + Missing(Keys(other), Keys(d))
  {
    var extra := Missing(other.order, d.order);
    var order := d.order + extra;
    if Valid(d) && Valid(other) {
      assert Distinct(order) by {
        forall i, j | 0 <= i < j < |order|
          ensures order[i] != order[j]
        {
          if j >= |d.order| && i < |d.order| {
            assert order[j] in extra;
          }
        }
      }
    }
  }

  /** Nothing is missing when none of the keys is present. */
  lemma {:induction false} MissingNone(s: seq<Name>, present: seq<Name>)
    requires forall i :: 0 <= i < |s| ==> s[i] !in present
    ensures Missing(s, present) == s
  {
    if |s| > 0 {
      MissingNone(s[1..], present);
    }
  }

  /** Assigning keys in turn keeps a dict well formed. */
  lemma SetFourValid<V>(d: Dict<V>, k1: Name, v1: V, k2: Name, v2: V, k3: Name, v3: V, k4: Name, v4: V)
    requires Valid(d)
    ensures Valid(Set(Set(Set(Set(d, k1, v1), k2, v2), k3, v3), k4, v4))
  {
    var d1 := Set(d, k1, v1);
    var d2 := Set(d1, k2, v2);
    var d3 := Set(d2, k3, v3);
    SetKeys(d, k1, v1);
    SetKeys(d1, k2, v2);
    SetKeys(d2, k3, v3);
    SetKeys(d3, k4, v4);
  }

  lemma SetFiveValid<V>(d: Dict<V>, k1: Name, v1: V, k2: Name, v2: V, k3: Name, v3: V, k4: Name, v4: V, k5: Name, v5: V)
    requires Valid(d)
    ensures Valid(Set(Set(Set(Set(Set(d, k1, v1), k2, v2), k3, v3), k4, v4), k5, v5))
  {
    SetKeys(d, k1, v1);
    SetFourValid(Set(d, k1, v1), k2, v2, k3, v3, k4, v4, k5, v5);
  }

  /** Keys new to a dict go last, in assignment order. */
  lemma SetTwoFresh<V>(d: Dict<V>, k1: Name, v1: V, k2: Name, v2: V)
    requires k1 != k2 && !Has(d, k1) && !Has(d, k2)
    ensures Keys(Set(Set(d, k1, v1), k2, v2)) == Keys(d) + [k1, k2]
  {
    SetKeys(d, k1, v1);
    SetKeys(Set(d, k1, v1), k2, v2);
  }

  lemma SetFourFresh<V>(d: Dict<V>, k1: Name, v1: V, k2: Name, v2: V, k3: Name, v3: V, k4: Name, v4: V)
    requires k1 != k2 && k1 != k3 && k1 != k4 && k2 != k3 && k2 != k4 && k3 != k4
    requires !Has(d, k1) && !Has(d, k2) && !Has(d, k3) && !Has(d, k4)
    ensures Keys(Set(Set(Set(Set(d, k1, v1), k2, v2), k3, v3), k4, v4)) == Keys(d) + [k1, k2, k3, k4]
  {
    SetTwoFresh(d, k1, v1, k2, v2);
    var d2 := Set(Set(d, k1, v1), k2, v2);
    SetTwoFresh(d2, k3, v3, k4, v4);
    assert Keys(d) + [k1, k2] + [k3, k4] == Keys(d) + [k1, k2, k3, k4];
  }

  lemma SetFiveFresh<V>(d: Dict<V>, k1: Name, v1: V, k2: Name, v2: V, k3: Name, v3: V, k4: Name, v4: V, k5: Name, v5: V)
    requires k1 != k2 && k1 != k3 && k1 != k4 && k1 != k5 && k2 != k3 && k2 != k4 && k2 != k5
    requires k3 != k4 && k3 != k5 && k4 != k5
    requires !Has(d, k1) && !Has(d, k2) && !Has(d, k3) && !Has(d, k4) && !Has(d, k5)
    ensures Keys(Set(Set(Set(Set(Set(d, k1, v1), k2, v2), k3, v3), k4, v4), k5, v5)) == Keys(d) + [k1, k2, k3, k4, k5]
  {
    SetKeys(d, k1, v1);
    SetFourFresh(Set(d, k1, v1), k2, v2, k3, v3, k4, v4, k5, v5);
    assert Keys(d) + [k1] + [k2, k3, k4, k5] == Keys(d) + [k1, k2, k3, k4, k5];
  }
}

=== FILE: fields.dfy ===
/** The values that travel between the two logging systems: the Python
    objects a field dict can hold, the GLib variants the variant writer
    takes, and GLib's `GLogField` descriptors. */
module Fields {
  import opened Utf8
  import opened Dict
  import Text

  /** A `GVariant`: a string (`s`), a byte array (`ay`), or any other type,
      kept by type string and printed form. */
  datatype Variant =
    | VString(s: string)
    | VByteArray(bytes: seq<Byte>)
    | VOther(typeString: string, text: string)

  /** A Python object stored as a field value. `printed` is what `str()`
      returns for it; for a GLib.Variant the variant is kept as well. */
  datatype FieldValue =
    | Text(s: string)
    | Bytes(b: seq<Byte>)
    | Int(n: int)
    | Var(v: Variant, printed: string)
    | NoneValue
    | Other(printed: string)

  /** Field dicts are keyed by field name (`MESSAGE`, `GLIB_DOMAIN`, ...). */
  type FieldDict = Dict<FieldValue>

  /** `str(value)` for a value that is not `bytes`. */
  function Stringify(v: FieldValue): (s: string)
    requires !v.Bytes?
    ensures v.Text? ==> s == v.s
  {
    match v
    case Text(s) => s
    case Int(n) => Text.IntToString(n)
    case Var(_, p) => p
    case NoneValue => "None"
    case Other(p) => p
  }

  /** What a `GLogField.value` pointer is on the Python side: the integer
      address 0, Python's `None`, or an address whose readable memory
      from there on is `mem`. */
  datatype Pointer = NullAddress | NoneObject | Address(mem: seq<Byte>)

  /** `GLogField`: a key, a length (-1 for NUL-terminated text) and a value pointer. */
  datatype LogField = LogField(key: string, length: int, value: Pointer)

  /** What GLib promises about a descriptor's memory: a NUL-terminated
      value holds a NUL, a sized value holds at least `length` bytes. */
  predicate Readable(f: LogField) {
    f.value.Address? ==>
      (f.length == -1 ==> 0 in f.value.mem) && (f.length > 0 ==> f.length <= |f.value.mem|)
  }
}

=== FILE: glib2python.dfy ===
/** GLib -> Python: `GLibToPythonLogger` accepts a GLib log call, either as
    `GLogField` descriptors from a writer function or as a ready dict,
    and turns it into a Python log record: a logger name, a level, a
    message, a call site and the fields themselves.

    What the logging machinery does with the record (`getLogger`,
    `handle`) is outside the model; whether `handle` raised is a
    parameter of the writer function. */
module GLibToPython {
  import opened Wrappers
  import opened Utf8
  import opened Dict
  import opened Fields
  import opened Levels
  import opened FieldNames
  import Text

  /** A logger's settings: what goes before and after the converted
      domain, and whether journald's PRIORITY field overrides GLib's level. */
  datatype LoggerConfig = LoggerConfig(loggerPrefix: string, loggerSuffix: string, usePriorityField: bool)

  const DefaultLoggerConfig := LoggerConfig("", "", false)

  /** The exceptions the GLib-to-Python conversion can raise. */
  datatype Exception = ValueError | TypeError | AttributeError

  // ---------------------------------------------------------------------
  // _fields_to_dict

  /** One descriptor as `_fields_to_dict` reads it: `Success(None)` when
      the key is skipped, a failure when ctypes raises. A null value or a
      zero length is empty bytes; length -1 is a C string, text when it
      is valid UTF-8 and raw bytes otherwise; a positive length is that
      many raw bytes. */
  function DecodeField(f: LogField): (r: Result<Option<FieldValue>, Exception>)
    requires Readable(f)
    ensures f.value.NullAddress? || f.length == 0 ==> r == Success(Some(Bytes([])))
    ensures r.Success? && r.value.Some? && r.value.value.Text? ==>
      f.length == -1 && f.value.Address? && Encode(r.value.value.s) == TakeUntilNul(f.value.mem)
    ensures f.length == -1 && f.value.Address? ==>
      r.Success? && r.value.Some? && (r.value.value.Text? <==> Decode(TakeUntilNul(f.value.mem)).Some?)
    ensures f.length == -1 && f.value.Address? && !r.value.value.Text? ==> r.value.value == Bytes(TakeUntilNul(f.value.mem))
    ensures f.length > 0 && f.value.Address? ==> r == Success(Some(Bytes(f.value.mem[..f.length])))
    ensures r.Success? && r.value.None? <==> f.length == -1 && f.value.NoneObject?
    ensures r.Failure? <==> !f.value.NullAddress? && (f.length < -1 || (f.length > 0 && f.value.NoneObject?))
  {
    if f.value.NullAddress? || f.length == 0 then Success(Some(Bytes([])))
    else if f.length == -1 then
      (match f.value
       case NoneObject => Success(None)
       case Address(mem) =>
         var raw := TakeUntilNul(mem);
         (match Decode(raw)
          case Some(s) => EncodeDecode(raw, s); Success(Some(Text(s)))
          case None => Success(Some(Bytes(raw)))))
    else if f.length < -1 then Failure(ValueError)
    else
      match f.value
      case NoneObject => Failure(TypeError)
      case Address(mem) => Success(Some(Bytes(mem[..f.length])))
  }

  predicate AllReadable(fs: seq<LogField>) {
    forall i :: 0 <= i < |fs| ==> Readable(fs[i])
  }

  /** The value the last descriptor named `k` that is not skipped decodes to. */
  function LastDecoded(fs: seq<LogField>, k: Name): Option<FieldValue>
    requires AllReadable(fs)
  {
    if |fs| == 0 then None
    else
      var f := fs[|fs| - 1];
      var d := DecodeField(f);
      if NameOf(f.key) == k && d.Success? && d.value.Some? then d.value
      else LastDecoded(fs[..|fs| - 1], k)
  }

  /** The first exception raised while decoding `fs`, if any. */
  function FirstError(fs: seq<LogField>): Option<Exception>
    requires AllReadable(fs)
  {
    if |fs| == 0 then None
    else if DecodeField(fs[0]).Failure? then Some(DecodeField(fs[0]).error)
    else FirstError(fs[1..])
  }

  /** `_fields_to_dict`: the descriptors assigned in turn, so a later
      duplicate key overwrites an earlier one; the first descriptor that
      ctypes cannot read aborts the whole conversion. */
  function FieldsToDict(fs: seq<LogField>): (r: Result<FieldDict, Exception>)
    requires AllReadable(fs)
    ensures r.Success? ==> Valid(r.value)
    ensures r.Success? ==> forall k :: Get(r.value, k) == LastDecoded(fs, k)
    ensures r.Success? ==> forall k :: k in r.value.contents ==> Canonical(k)
    ensures r.Failure? <==> FirstError(fs).Some?
    ensures r.Failure? ==> r.error == FirstError(fs).value
    decreases |fs|
  {
    if |fs| == 0 then Success(Empty())
    else
      var init := fs[..|fs| - 1];
      var f := fs[|fs| - 1];
      FirstErrorSnoc(fs);
      match FieldsToDict(init)
      case Failure(e) => Failure(e)
      case Success(d) =>
        match DecodeField(f)
        case Failure(e) => Failure(e)
        case Success(None) => Success(d)
        case Success(Some(v)) =>
          SetKeys(d, NameOf(f.key), v);
          Success(Set(d, NameOf(f.key), v))
  }

  /** The first error of a sequence with one more descriptor: the old
      one if there was one, else the new descriptor's. */
  lemma {:induction false} FirstErrorSnoc(fs: seq<LogField>)
    requires |fs| > 0 && AllReadable(fs)
    ensures var init := fs[..|fs| - 1]; var d := DecodeField(fs[|fs| - 1]);
      FirstError(fs) == if FirstError(init).Some? then FirstError(init) else if d.Failure? then Some(d.error) else None
    decreases |fs|
  {
    if |fs| > 1 {
      var init := fs[..|fs| - 1];
      assert fs[1..][..|fs[1..]| - 1] == init[1..];
      assert fs[1..][|fs[1..]| - 1] == fs[|fs| - 1];
      FirstErrorSnoc(fs[1..]);
    }
  }

  /** A later descriptor for the same key wins over every earlier one. */
  lemma LaterFieldWins(fs: seq<LogField>, f: LogField, v: FieldValue)
    requires AllReadable(fs) && Readable(f)
    requires DecodeField(f) == Success(Some(v))
    requires FieldsToDict(fs).Success?
    ensures AllReadable(fs + [f])
    ensures FieldsToDict(fs + [f]).Success? && Get(FieldsToDict(fs + [f]).value, NameOf(f.key)) == Some(v)
  {
    var g := fs + [f];
    assert g[..|g| - 1] == fs;
    assert AllReadable(g) by {
      forall i | 0 <= i < |g|
        ensures Readable(g[i])
      {
        if i < |fs| {
          assert g[i] == fs[i];
        }
      }
    }
  }

  // ---------------------------------------------------------------------
  // Logger name, call site, message

  /** `_get_logger_name`: the GLIB_DOMAIN field (`''` when absent) with
      every '-' turned into '.', between prefix and suffix. Only a `str`
      has a `replace` that takes `str` arguments: `bytes` raise
      `TypeError`, other objects `AttributeError`. */
  function LoggerName(cfg: LoggerConfig, fields: FieldDict): (r: Result<string, Exception>)
    ensures !Has(fields, GLibDomain) ==> r == Success(cfg.loggerPrefix + cfg.loggerSuffix)
    ensures Get(fields, GLibDomain).Some? && Get(fields, GLibDomain).value.Text? ==>
      var s := Get(fields, GLibDomain).value.s;
      r.Success? && r.value == cfg.loggerPrefix + Text.Replace(s, '-', ".") + cfg.loggerSuffix
    ensures r.Success? ==> cfg.loggerPrefix <= r.value
    ensures r.Success? && '-' !in cfg.loggerPrefix && '-' !in cfg.loggerSuffix ==> '-' !in r.value
    ensures r.Failure? <==> Has(fields, GLibDomain) && !fields.contents[GLibDomain].Text?
    ensures r.Failure? && fields.contents[GLibDomain].Bytes? ==> r.error == TypeError
    ensures r.Failure? && !fields.contents[GLibDomain].Bytes? ==> r.error == AttributeError
  {
    match GetOr(fields, GLibDomain, Text(""))
    case Text(s) =>
      assert !Has(fields, GLibDomain) ==>
        cfg.loggerPrefix + Text.Replace(s, '-', ".") + cfg.loggerSuffix == cfg.loggerPrefix + cfg.loggerSuffix by {
        if !Has(fields, GLibDomain) {
          assert Text.Replace(s, '-', ".") == [];
          assert cfg.loggerPrefix + [] == cfg.loggerPrefix;
        }
      }
      assert cfg.loggerPrefix + Text.Replace(s, '-', ".") + cfg.loggerSuffix
        == cfg.loggerPrefix + (Text.Replace(s, '-', ".") + cfg.loggerSuffix);
      Success(cfg.loggerPrefix + Text.Replace(s, '-', ".") + cfg.loggerSuffix)
    case Bytes(_) => Failure(TypeError)
    case _ => Failure(AttributeError)
  }

  /** `int(value)` for a field value: `str` and `bytes` are parsed, an
      `int` is itself, anything else cannot be converted. */
  function ToInt(v: FieldValue): (r: Result<int, Exception>)
    ensures v.Int? ==> r == Success(v.n)
    ensures v.Text? && Text.ParseInt(v.s).Some? ==> r == Success(Text.ParseInt(v.s).value)
    ensures v.Bytes? && Text.ParseIntBytes(v.b).Some? ==> r == Success(Text.ParseIntBytes(v.b).value)
    ensures r.Failure? && (v.Text? || v.Bytes?) ==> r.error == ValueError
    ensures r.Failure? && !v.Text? && !v.Bytes? ==> r.error == TypeError
    ensures (v.Text? && Text.ParseInt(v.s).None?) || (v.Bytes? && Text.ParseIntBytes(v.b).None?) || !(v.Int? || v.Text? || v.Bytes?) ==>
      r.Failure?
  {
    match v
    case Int(n) => Success(n)
    case Text(s) =>
      (match Text.ParseInt(s)
       case Some(n) => Success(n)
       case None => Failure(ValueError))
    case Bytes(b) =>
      (match Text.ParseIntBytes(b)
       case Some(n) => Success(n)
       case None => Failure(ValueError))
    case _ => Failure(TypeError)
  }

  /** The call site a record gets: path, line and function, each `None` when absent. */
  datatype CodeLocation = CodeLocation(pathName: Option<FieldValue>, lineNo: Option<int>, funcName: Option<FieldValue>)

  /** `_get_code_location`: CODE_PATH and CODE_FUNC as they are, CODE_LINE
      through `int()` unless it is missing or `None`; `int()` is where a
      malformed line number raises. */
  function GetCodeLocation(fields: FieldDict): (r: Result<CodeLocation, Exception>)
    ensures r.Success? ==> r.value.pathName == Get(fields, CodePath) && r.value.funcName == Get(fields, CodeFunc)
    ensures r.Success? ==> (r.value.lineNo.Some? <==> Has(fields, CodeLine) && !fields.contents[CodeLine].NoneValue?)
    ensures r.Success? && r.value.lineNo.Some? ==> ToInt(fields.contents[CodeLine]) == Success(r.value.lineNo.value)
    ensures r.Failure? <==> Has(fields, CodeLine) && !fields.contents[CodeLine].NoneValue? && ToInt(fields.contents[CodeLine]).Failure?
    ensures r.Failure? ==> r.error == ToInt(fields.contents[CodeLine]).error
  {
    var line :- LineNumber(Get(fields, CodeLine));
    Success(CodeLocation(Get(fields, CodePath), line, Get(fields, CodeFunc)))
  }

  /** The line number: `None` for an absent CODE_LINE or one holding
      `None`, otherwise `int()` of the value. */
  function LineNumber(v: Option<FieldValue>): (r: Result<Option<int>, Exception>)
    ensures v.None? || v.value.NoneValue? ==> r == Success(None)
    ensures v.Some? && !v.value.NoneValue? ==>
      (r.Success? <==> ToInt(v.value).Success?) &&
      (r.Success? ==> r.value == Some(ToInt(v.value).value)) &&
      (r.Failure? ==> r.error == ToInt(v.value).error)
  {
    match v
    case None => Success(None)
    case Some(NoneValue) => Success(None)
    case Some(x) =>
      var n :- ToInt(x);
      Success(Some(n))
  }

  /** `_get_message`: MESSAGE (`''` when absent); `bytes` are decoded with
      U+FFFD for what is not UTF-8, any other object is passed on. */
  function GetMessage(fields: FieldDict): (r: FieldValue)
    ensures !Has(fields, Message) ==> r == Text("")
    ensures Has(fields, Message) && !fields.contents[Message].Bytes? ==> r == fields.contents[Message]
    ensures Has(fields, Message) && fields.contents[Message].Bytes? ==> r.Text?
    ensures Has(fields, Message) && fields.contents[Message].Bytes? && Decode(fields.contents[Message].b).Some? ==>
      r == Text(Decode(fields.contents[Message].b).value)
    ensures Has(fields, Message) && fields.contents[Message].Bytes? && Decode(fields.contents[Message].b).None? ==>
      ReplacementChar in r.s
  {
    match GetOr(fields, Message, Text(""))
    case Bytes(b) =>
      if Decode(b).Some? then DecodeReplaceAgrees(b); Text(DecodeReplace(b))
      else DecodeReplaceMarksError(b); Text(DecodeReplace(b))
    case v => v
  }

  // ---------------------------------------------------------------------
  // Level

  /** `_get_log_level` over a given PRIORITY table: with
      `use_priority_field`, a PRIORITY string in the table decides;
      otherwise, or when it is missing or not in the table, the most
      severe GLib level bit does, and `default` when no level bit is set. */
  function LevelFromTable(table: map<string, int>, cfg: LoggerConfig, fields: FieldDict, flags: LogLevelFlags, default: int): (r: int)
    ensures var p := Get(fields, Priority);
      cfg.usePriorityField && p.Some? && p.value.Text? && p.value.s in table ==> r == table[p.value.s]
    ensures var p := Get(fields, Priority);
      !(cfg.usePriorityField && p.Some? && p.value.Text? && p.value.s in table) ==>
        r == BitLevel(LowestLevelBit(flags), default)
  {
    var p := Get(fields, Priority);
    if cfg.usePriorityField && p.Some? && p.value.Text? && p.value.s in table then table[p.value.s]
    else
      FlagsToLevelLowestBit(flags, default);
      FlagsToLevel(flags, default)
  }

  /** `_get_log_level` as the code has it, with the PRIORITY table as
      written (priority "1" gives WARNING and "4" gives CRITICAL). */
  function GetLogLevel(cfg: LoggerConfig, fields: FieldDict, flags: LogLevelFlags, default: int := Info): (r: int)
    ensures var p := Get(fields, Priority);
      cfg.usePriorityField && p.Some? && p.value.Text? && p.value.s in PriorityMapAsWritten ==> r == PriorityMapAsWritten[p.value.s]
    ensures var p := Get(fields, Priority);
      !(cfg.usePriorityField && p.Some? && p.value.Text? && p.value.s in PriorityMapAsWritten) ==>
        r == BitLevel(LowestLevelBit(flags), default)
  {
    LevelFromTable(PriorityMapAsWritten, cfg, fields, flags, default)
  }

  /** `_get_log_level` with the PRIORITY table in syslog order. */
  function GetLogLevelCorrected(cfg: LoggerConfig, fields: FieldDict, flags: LogLevelFlags, default: int := Info): (r: int)
    ensures var p := Get(fields, Priority);
      cfg.usePriorityField && p.Some? && p.value.Text? && p.value.s in PriorityMap ==> r == PriorityMap[p.value.s]
    ensures var p := Get(fields, Priority);
      !(cfg.usePriorityField && p.Some? && p.value.Text? && p.value.s in PriorityMap) ==>
        r == BitLevel(LowestLevelBit(flags), default)
  {
    LevelFromTable(PriorityMap, cfg, fields, flags, default)
  }

  /** A field dict holding only PRIORITY. */
  function PriorityFields(p: string): (d: FieldDict)
    ensures Valid(d) && Get(d, Priority) == Some(Text(p))
  {
    Dict([Priority], map[Priority := Text(p)])
  }

  /** As written, with the override on, a PRIORITY of "4" (warning) gives
      CRITICAL, more severe than the ERROR of "3" (err), and "1" (alert)
      gives WARNING, less severe than the CRITICAL of "2" (crit), whatever
      the flags. */
  lemma GetLogLevelAsWrittenInverts(cfg: LoggerConfig, flags: LogLevelFlags)
    requires cfg.usePriorityField
    ensures GetLogLevel(cfg, PriorityFields("4"), flags) == Critical > Error == GetLogLevel(cfg, PriorityFields("3"), flags)
    ensures GetLogLevel(cfg, PriorityFields("1"), flags) == Warning < Critical == GetLogLevel(cfg, PriorityFields("2"), flags)
  {
  }

  /** With the corrected table a less severe priority never gives a more
      severe level, and the level differs from the code's only for a
      PRIORITY of "1" or "4" under the override. */
  lemma GetLogLevelCorrectedMonotone(cfg: LoggerConfig, fields: FieldDict, other: FieldDict, flags: LogLevelFlags, i: nat, j: nat)
    requires cfg.usePriorityField && i <= j < |PriorityDigits|
    requires Get(fields, Priority) == Some(Text(PriorityDigits[i])) && Get(other, Priority) == Some(Text(PriorityDigits[j]))
    ensures GetLogLevelCorrected(cfg, fields, flags) >= GetLogLevelCorrected(cfg, other, flags)
    ensures GetLogLevelCorrected(cfg, fields, flags) != GetLogLevel(cfg, fields, flags) <==> i == 1 || i == 4
  {
    PriorityMapMonotone();
  }

  /** The corrected level agrees with the code's unless the override is on
      and PRIORITY is "1" or "4". */
  lemma GetLogLevelCorrectedAgrees(cfg: LoggerConfig, fields: FieldDict, flags: LogLevelFlags)
    requires !(cfg.usePriorityField && (Get(fields, Priority) == Some(Text("1")) || Get(fields, Priority) == Some(Text("4"))))
    ensures GetLogLevelCorrected(cfg, fields, flags) == GetLogLevel(cfg, fields, flags)
  {
    PriorityMapMonotone();
  }

  /** Without a PRIORITY field the flag bits alone decide the level,
      whatever the settings. */
  lemma LevelWithoutPriority(cfg: LoggerConfig, fields: FieldDict, flags: LogLevelFlags)
    requires !Has(fields, Priority)
    ensures GetLogLevel(cfg, fields, flags) == FlagsToLevel(flags)
  {
    FlagsToLevelLowestBit(flags, Info);
  }

  /** Without the PRIORITY override the flag bits alone decide the level,
      whatever the fields hold. */
  lemma LevelIgnoresFields(fields: FieldDict, other: FieldDict, flags: LogLevelFlags)
    ensures GetLogLevel(DefaultLoggerConfig, fields, flags) == GetLogLevel(DefaultLoggerConfig, other, flags)
    ensures GetLogLevel(DefaultLoggerConfig, fields, flags) == FlagsToLevel(flags)
  {
    FlagsToLevelLowestBit(flags, Info);
  }

  // ---------------------------------------------------------------------
  // Record and the two entry points

  /** The `logging.LogRecord` `_get_record` builds: no arguments, no
      exception info, and the whole field dict as `glib_fields`, as a
      factory that keeps that keyword stores it. */
  datatype PyRecord = PyRecord(
    name: string,
    levelno: int,
    pathName: Option<FieldValue>,
    lineNo: Option<int>,
    msg: FieldValue,
    funcName: Option<FieldValue>,
    glibFields: FieldDict)

  /** `_get_record`: message, level, logger name and call site in that
      order; the first exception is the one that propagates. */
  function GetRecord(cfg: LoggerConfig, flags: LogLevelFlags, fields: FieldDict): (r: Result<PyRecord, Exception>)
    ensures r.Success? <==> LoggerName(cfg, fields).Success? && GetCodeLocation(fields).Success?
    ensures r.Failure? ==> r.error == if LoggerName(cfg, fields).Failure? then LoggerName(cfg, fields).error else GetCodeLocation(fields).error
    ensures r.Success? ==>
      && r.value.name == LoggerName(cfg, fields).value
      && r.value.levelno == GetLogLevel(cfg, fields, flags)
      && r.value.msg == GetMessage(fields)
      && r.value.pathName == Get(fields, CodePath)
      && r.value.lineNo == GetCodeLocation(fields).value.lineNo
      && r.value.funcName == Get(fields, CodeFunc)
      && r.value.glibFields == fields
  {
    var message := GetMessage(fields);
    var level := GetLogLevel(cfg, fields, flags);
    var name :- LoggerName(cfg, fields);
    var loc :- GetCodeLocation(fields);
    Success(PyRecord(name, level, loc.pathName, loc.lineNo, message, loc.funcName, fields))
  }

  /** The record factory `_get_record` calls: logging's stock `LogRecord`,
      whose `__init__` accepts `**kwargs` and stores none of them, or a
      factory that keeps the `glib_fields` keyword as an attribute. */
  datatype RecordFactory = StockLogRecord | KeepsGLibFields

  /** The `glib_fields` attribute of the record `factory` builds for `r`. */
  function GLibFieldsAttribute(factory: RecordFactory, r: PyRecord): (a: Option<FieldDict>)
    ensures a.Some? <==> factory.KeepsGLibFields?
  {
    if factory.KeepsGLibFields? then Some(r.glibFields) else None
  }

  /** What the writer function receives: GLib's descriptors, or a dict
      handed over by `glibToPythonLogFunc`. */
  datatype WriterInput = Descriptors(fields: seq<LogField>) | Mapping(dict: FieldDict)

  /** `GLib.LogWriterOutput`. */
  datatype WriterOutput = Handled | Unhandled

  /** The writer function's answer and the record it dispatched, if any. */
  datatype WriterResult = WriterResult(output: WriterOutput, dispatched: Option<PyRecord>)

  /** The dict a writer input stands for, or the exception reading it raised. */
  function InputFields(input: WriterInput): Result<FieldDict, Exception>
    requires input.Descriptors? ==> AllReadable(input.fields)
  {
    match input
    case Mapping(d) => Success(d)
    case Descriptors(fs) => FieldsToDict(fs)
  }

  /** `glibToPythonLogWriterFunc`: a dict is used as it is, descriptors are
      converted; the record is dispatched once, and any exception on the
      way, from the conversion, the record or `handle` itself, turns into
      UNHANDLED. */
  function WriterFunc(cfg: LoggerConfig, flags: LogLevelFlags, input: WriterInput, handleRaises: bool): (r: WriterResult)
    requires input.Descriptors? ==> AllReadable(input.fields)
    ensures r.output == Handled <==>
      InputFields(input).Success? && GetRecord(cfg, flags, InputFields(input).value).Success? && !handleRaises
    ensures r.dispatched.Some? <==> InputFields(input).Success? && GetRecord(cfg, flags, InputFields(input).value).Success?
    ensures r.dispatched.Some? ==> r.dispatched.value == GetRecord(cfg, flags, InputFields(input).value).value
    ensures r.dispatched.Some? ==> r.dispatched.value.glibFields == InputFields(input).value
    ensures input.Mapping? && r.dispatched.Some? ==> r.dispatched.value.glibFields == input.dict
  {
    match InputFields(input)
    case Failure(_) => WriterResult(Unhandled, None)
    case Success(fields) =>
      match GetRecord(cfg, flags, fields)
      case Failure(_) => WriterResult(Unhandled, None)
      case Success(record) => WriterResult(if handleRaises then Unhandled else Handled, Some(record))
  }

  /** As written, with logging's stock factory a dispatched record has no
      `glib_fields`, although the docstring promises the field dict; the
      log function's call with domain "app" is dispatched and shows it. */
  lemma StockRecordDropsGLibFields(cfg: LoggerConfig, flags: LogLevelFlags, input: WriterInput, handleRaises: bool)
    requires input.Descriptors? ==> AllReadable(input.fields)
    ensures var r := WriterFunc(cfg, flags, input, handleRaises);
      r.dispatched.Some? ==> GLibFieldsAttribute(StockLogRecord, r.dispatched.value).None?
    ensures var r := WriterFunc(cfg, flags, Mapping(LogFuncFields(Some("app"), "hi")), handleRaises);
      r.dispatched.Some? && GLibFieldsAttribute(StockLogRecord, r.dispatched.value).None?
  {
    LogFuncRecord(cfg, Some("app"), flags, "hi");
    WriterFuncMapping(cfg, flags, LogFuncFields(Some("app"), "hi"), handleRaises);
  }

  /** The record as intended, built by a factory that keeps the keyword:
      every dispatched record carries the whole field dict it came from. */
  lemma IntendedRecordCarriesFields(cfg: LoggerConfig, flags: LogLevelFlags, input: WriterInput, handleRaises: bool)
    requires input.Descriptors? ==> AllReadable(input.fields)
    ensures var r := WriterFunc(cfg, flags, input, handleRaises);
      r.dispatched.Some? ==>
        InputFields(input).Success? && GLibFieldsAttribute(KeepsGLibFields, r.dispatched.value) == Some(InputFields(input).value)
  {
  }

  /** The dict `glibToPythonLogFunc` builds: MESSAGE, then GLIB_DOMAIN
      (Python's `None` for GLib's null domain). */
  function LogFuncFields(domain: Option<string>, message: string): (d: FieldDict)
    ensures Valid(d) && Keys(d) == [Message, GLibDomain]
    ensures Get(d, Message) == Some(Text(message))
    ensures Get(d, GLibDomain) == Some(if domain.Some? then Text(domain.value) else NoneValue)
    ensures forall k :: k != Message && k != GLibDomain ==> !Has(d, k)
  {
    var v := if domain.Some? then Text(domain.value) else NoneValue;
    Dict([Message, GLibDomain], map[Message := Text(message), GLibDomain := v])
  }

  /** `glibToPythonLogFunc`: the two-field dict handed to the writer
      function; its answer is discarded. A null domain arrives as `None`,
      whose missing `replace` makes the writer function give up, so such
      a message is never dispatched. */
  function LogFunc(cfg: LoggerConfig, domain: Option<string>, flags: LogLevelFlags, message: string, handleRaises: bool): (r: Option<PyRecord>)
    ensures domain.None? ==> r.None?
    ensures domain.Some? ==>
      r.Some? && r.value.msg == Text(message) &&
      r.value.name == cfg.loggerPrefix + Text.Replace(domain.value, '-', ".") + cfg.loggerSuffix
    ensures r.Some? ==>
      && Keys(r.value.glibFields) == [Message, GLibDomain]
      && Get(r.value.glibFields, Message) == Some(Text(message))
      && Get(r.value.glibFields, GLibDomain) == Some(Text(domain.value))
      && r.value.lineNo.None? && r.value.pathName.None? && r.value.funcName.None?
    ensures r.Some? ==> r.value.levelno == FlagsToLevel(flags)
  {
    var fields := LogFuncFields(domain, message);
    LogFuncRecord(cfg, domain, flags, message);
    LogFuncRecordSite(cfg, domain, flags, message);
    WriterFuncMapping(cfg, flags, fields, handleRaises);
    WriterFunc(cfg, flags, Mapping(fields), handleRaises).dispatched
  }

  /** On a dict the writer function dispatches the record `_get_record`
      builds from it, if it builds. */
  lemma WriterFuncMapping(cfg: LoggerConfig, flags: LogLevelFlags, d: FieldDict, handleRaises: bool)
    ensures var g := GetRecord(cfg, flags, d);
      WriterFunc(cfg, flags, Mapping(d), handleRaises).dispatched == if g.Success? then Some(g.value) else None
  {
  }

  /** The record `_get_record` builds from the log function's dict:
      there is one exactly when there is a domain, with the message and
      the converted domain as the name. */
  lemma LogFuncRecord(cfg: LoggerConfig, domain: Option<string>, flags: LogLevelFlags, message: string)
    ensures var r := GetRecord(cfg, flags, LogFuncFields(domain, message));
      && (r.Success? <==> domain.Some?)
      && (r.Success? ==>
        && r.value.msg == Text(message)
        && r.value.name == cfg.loggerPrefix + Text.Replace(domain.value, '-', ".") + cfg.loggerSuffix)
  {
    var fields := LogFuncFields(domain, message);
    assert GetCodeLocation(fields) == Success(CodeLocation(None, None, None)) by {
      assert !Has(fields, CodeLine) && !Has(fields, CodePath) && !Has(fields, CodeFunc);
    }
    assert GetMessage(fields) == Text(message);
  }

  /** That record's level comes from the flags, and it has no call site. */
  lemma LogFuncRecordSite(cfg: LoggerConfig, domain: Option<string>, flags: LogLevelFlags, message: string)
    ensures var r := GetRecord(cfg, flags, LogFuncFields(domain, message));
      r.Success? ==>
        && r.value.levelno == FlagsToLevel(flags)
        && r.value.lineNo.None? && r.value.pathName.None? && r.value.funcName.None?
  {
    var fields := LogFuncFields(domain, message);
    assert GetCodeLocation(fields) == Success(CodeLocation(None, None, None)) by {
      assert !Has(fields, CodeLine) && !Has(fields, CodePath) && !Has(fields, CodeFunc);
    }
    LevelWithoutPriority(cfg, fields, flags);
  }
}

=== FILE: levels.dfy ===
/** The two severity scales and the tables between them.

    GLib's `GLogLevelFlags` is a bit set: a smaller level bit is a more
    severe level. Python's levels are integers: a larger one is more severe. */
module Levels {

  type LogLevelFlags = bv32

  const FlagRecursion: LogLevelFlags := 1
  const FlagFatal: LogLevelFlags := 2
  const LevelError: LogLevelFlags := 4
  const LevelCritical: LogLevelFlags := 8
  const LevelWarning: LogLevelFlags := 16
  const LevelMessage: LogLevelFlags := 32
  const LevelInfo: LogLevelFlags := 64
  const LevelDebug: LogLevelFlags := 128
  /** Everything but the two flag bits. */
  const LevelMask: LogLevelFlags := !(FlagRecursion | FlagFatal)

  const Critical: int := 50
  const Error: int := 40
  const Warning: int := 30
  const Info: int := 20
  const Debug: int := 10

  // ---------------------------------------------------------------------
  // Python level -> GLib level

  /** `LoggerHandler._level_to_glib_map` in the order `sorted(..., reverse=True)`
      visits it. CRITICAL and ERROR deliberately become WARNING: GLib aborts
      the process on its own ERROR and may on CRITICAL. */
  const LevelToGLibMap: seq<(int, LogLevelFlags)> := [
    (Critical, LevelWarning),
    (Error, LevelWarning),
    (Warning, LevelWarning),
    (Info, LevelInfo),
    (Debug, LevelDebug)
  ]

  /** Index of the first entry whose threshold `level` reaches; `|table|` when none does. */
  function FirstReached(table: seq<(int, LogLevelFlags)>, level: int): (i: nat)
    ensures i <= |table|
    ensures forall k :: 0 <= k < i ==> level < table[k].0
    ensures i < |table| ==> level >= table[i].0
  {
    if |table| == 0 || level >= table[0].0 then 0 else 1 + FirstReached(table[1..], level)
  }

  /** The loop of `_level_to_glib`: the value of the first entry whose
      threshold `level` reaches, else `default`. */
  function ScanThresholds(table: seq<(int, LogLevelFlags)>, level: int, default: LogLevelFlags): (r: LogLevelFlags)
    ensures var i := FirstReached(table, level); r == if i < |table| then table[i].1 else default
  {
    if |table| == 0 then default
    else if level >= table[0].0 then table[0].1
    else ScanThresholds(table[1..], level, default)
  }

  /** `_level_to_glib(level, default)`. */
  function LevelToGLib(level: int, default: LogLevelFlags := LevelDebug): (r: LogLevelFlags)
    ensures level >= Warning ==> r == LevelWarning
    ensures Info <= level < Warning ==> r == LevelInfo
    ensures Debug <= level < Info ==> r == LevelDebug
    ensures level < Debug ==> r == default
  {
    var t := LevelToGLibMap;
    assert t[0].0 == Critical && t[1].0 == Error && t[2].0 == Warning && t[3].0 == Info && t[4].0 == Debug;
    ScanThresholds(t, level, default)
  }

  /** With the default fallback the bridge never hands GLib an ERROR or a CRITICAL. */
  lemma LevelToGLibNeverFatal(level: int)
    ensures LevelToGLib(level) in {LevelWarning, LevelInfo, LevelDebug}
    ensures LevelToGLib(level) != LevelError && LevelToGLib(level) != LevelCritical
  {
  }

  /** A more severe Python level never maps to a less severe GLib level. */
  lemma LevelToGLibMonotone(l1: int, l2: int)
    requires l1 <= l2
    ensures LevelToGLib(l2) <= LevelToGLib(l1)
  {
  }

  // ---------------------------------------------------------------------
  // GLib level -> Python level

  /** `GLibToPythonLogger._glib_level_map` in the order `sorted(...)` visits
      it: most severe bit first. */
  const GLibLevelMap: seq<(LogLevelFlags, int)> := [
    (LevelError, Error),
    (LevelCritical, Critical),
    (LevelWarning, Warning),
    (LevelMessage, Info),
    (LevelInfo, Info),
    (LevelDebug, Debug)
  ]

  /** `bit & flags` is non-zero. */
  predicate Overlaps(bit: LogLevelFlags, flags: LogLevelFlags) {
    bit & flags != 0
  }

  /** Index of the first entry whose bit is set in `flags`; `|table|` when none is. */
  function FirstSet(table: seq<(LogLevelFlags, int)>, flags: LogLevelFlags): (i: nat)
    ensures i <= |table|
    ensures forall k :: 0 <= k < i ==> !Overlaps(table[k].0, flags)
    ensures i < |table| ==> Overlaps(table[i].0, flags)
  {
    if |table| == 0 || Overlaps(table[0].0, flags) then 0 else 1 + FirstSet(table[1..], flags)
  }

  /** The loop of `_get_log_level`: the level of the first entry whose bit
      is set in `flags`, else `default`. */
  function ScanBits(table: seq<(LogLevelFlags, int)>, flags: LogLevelFlags, default: int): (r: int)
    ensures var i := FirstSet(table, flags); r == if i < |table| then table[i].1 else default
  {
    if |table| == 0 then default
    else if Overlaps(table[0].0, flags) then table[0].1
    else ScanBits(table[1..], flags, default)
  }

  /** The flag fallback of `_get_log_level`: mask off the flag bits and
      take the most severe level bit that is set. */
  function FlagsToLevel(flags: LogLevelFlags, default: int := Info): int {
    ScanBits(GLibLevelMap, flags & LevelMask, default)
  }

  /** The lowest level bit (2 to 7) set in `flags`, or 0. */
  function LowestLevelBit(flags: LogLevelFlags): LogLevelFlags {
    var m := flags & 0xFC;
    m & (0 - m)
  }

  /** The Python level a single GLib level bit stands for. */
  function BitLevel(bit: LogLevelFlags, default: int): int {
    if bit == LevelError then Error
    else if bit == LevelCritical then Critical
    else if bit == LevelWarning then Warning
    else if bit == LevelMessage || bit == LevelInfo then Info
    else if bit == LevelDebug then Debug
    else default
  }

  /** The table scan agrees with isolating the lowest set level bit. */
  lemma FlagsToLevelLowestBit(flags: LogLevelFlags, default: int)
    ensures FlagsToLevel(flags, default) == BitLevel(LowestLevelBit(flags), default)
  {
    var m := flags & LevelMask;
    var t := GLibLevelMap;
    var i := FirstSet(t, m);
    assert t[0] == (LevelError, Error) && t[1] == (LevelCritical, Critical) && t[2] == (LevelWarning, Warning);
    assert t[3] == (LevelMessage, Info) && t[4] == (LevelInfo, Info) && t[5] == (LevelDebug, Debug);
    if m & LevelError != 0 {
      assert i == 0;
    } else if m & LevelCritical != 0 {
      assert i == 1;
    } else if m & LevelWarning != 0 {
      assert i == 2;
    } else if m & LevelMessage != 0 {
      assert i == 3;
    } else if m & LevelInfo != 0 {
      assert i == 4;
    } else if m & LevelDebug != 0 {
      assert i == 5;
    } else {
      assert i == 6;
    }
  }

  /** Every level the bridge sends to GLib comes back as the Python level
      of its band: WARNING and above as WARNING, INFO as INFO, the rest as DEBUG. */
  lemma LevelRoundTrip(level: int)
    ensures FlagsToLevel(LevelToGLib(level)) ==
      if level >= Warning then Warning else if level >= Info then Info else Debug
  {
    FlagsToLevelLowestBit(LevelToGLib(level), Info);
  }

  // ---------------------------------------------------------------------
  // journald PRIORITY -> Python level

  /** `_log_level_priority_map` as the code writes it. Priority 1 (alert)
      maps to WARNING and priority 4 (warning) to CRITICAL. */
  const PriorityMapAsWritten: map<string, int> := map[
    "0" := Critical, "1" := Warning, "2" := Critical, "3" := Error,
    "4" := Critical, "5" := Info, "6" := Info, "7" := Debug
  ]

  /** The syslog priorities that journald's PRIORITY field carries
      (emerg, alert, crit, err, warning, notice, info, debug) mapped to
      Python's levels by severity: the table the code evidently means. */
  const PriorityMap: map<string, int> := map[
    "0" := Critical, "1" := Critical, "2" := Critical, "3" := Error,
    "4" := Warning, "5" := Info, "6" := Info, "7" := Debug
  ]

  const PriorityDigits: seq<string> := ["0", "1", "2", "3", "4", "5", "6", "7"]

  /** As written, a less severe journald priority can give a more severe
      Python level: "4" (warning) beats "3" (err), "2" (crit) beats "1" (alert). */
  lemma PriorityMapAsWrittenNotMonotone()
    ensures PriorityMapAsWritten["3"] < PriorityMapAsWritten["4"]
    ensures PriorityMapAsWritten["1"] < PriorityMapAsWritten["2"]
  {
  }

  /** The corrected table has the same keys, differs only at "1" and "4",
      and never ranks a less severe priority above a more severe one. */
  lemma PriorityMapMonotone()
    ensures PriorityMap.Keys == PriorityMapAsWritten.Keys == set d | d in PriorityDigits
    ensures forall d :: d in PriorityMap && d != "1" && d != "4" ==> PriorityMap[d] == PriorityMapAsWritten[d]
    ensures forall i, j :: 0 <= i <= j < |PriorityDigits| ==>
      PriorityMap[PriorityDigits[i]] >= PriorityMap[PriorityDigits[j]]
  {
  }
}

=== FILE: names.dfy ===
/** Field names. A name is a string; the names the bridge itself reads or
    writes get a constructor each and every other string is `Custom`. A
    canonical name never spells a well-known name through `Custom`, so two
    canonical names are equal exactly when their spellings are. */
module FieldNames {

  datatype Name =
    | Message           // MESSAGE
    | GLibDomain        // GLIB_DOMAIN
    | Priority          // PRIORITY
    | CodeFunc          // CODE_FUNC
    | CodeFile          // CODE_FILE
    | CodePath          // CODE_PATH
    | CodeLine          // CODE_LINE
    | PythonMessage     // PYTHON_MESSAGE
    | PythonModule      // PYTHON_MODULE
    | PythonLogger      // PYTHON_LOGGER
    | PythonThreadName  // PYTHON_TNAME
    | PythonThreadId    // PYTHON_TID
    | PythonExc         // PYTHON_EXC
    | PythonExcMessage  // PYTHON_EXC_MESSAGE
    | Custom(s: string)

  /** The string that spells a well-known name. */
  function WellKnownSpelling(n: Name): string
    requires !n.Custom?
  {
    match n
    case Message => "MESSAGE"
    case GLibDomain => "GLIB_DOMAIN"
    case Priority => "PRIORITY"
    case CodeFunc => "CODE_FUNC"
    case CodeFile => "CODE_FILE"
    case CodePath => "CODE_PATH"
    case CodeLine => "CODE_LINE"
    case PythonMessage => "PYTHON_MESSAGE"
    case PythonModule => "PYTHON_MODULE"
    case PythonLogger => "PYTHON_LOGGER"
    case PythonThreadName => "PYTHON_TNAME"
    case PythonThreadId => "PYTHON_TID"
    case PythonExc => "PYTHON_EXC"
    case PythonExcMessage => "PYTHON_EXC_MESSAGE"
  }

  /** The well-known name a string spells, if any. */
  function WellKnown(s: string): (r: Name)
    ensures !r.Custom? ==> WellKnownSpelling(r) == s
  {
    if s == "MESSAGE" then Message
    else if s == "GLIB_DOMAIN" then GLibDomain
    else if s == "PRIORITY" then Priority
    else if s == "CODE_FUNC" then CodeFunc
    else if s == "CODE_FILE" then CodeFile
    else if s == "CODE_PATH" then CodePath
    else if s == "CODE_LINE" then CodeLine
    else if s == "PYTHON_MESSAGE" then PythonMessage
    else if s == "PYTHON_MODULE" then PythonModule
    else if s == "PYTHON_LOGGER" then PythonLogger
    else if s == "PYTHON_TNAME" then PythonThreadName
    else if s == "PYTHON_TID" then PythonThreadId
    else if s == "PYTHON_EXC" then PythonExc
    else if s == "PYTHON_EXC_MESSAGE" then PythonExcMessage
    else Custom(s)
  }

  /** A name in its one representation: a well-known name is never
      spelled through `Custom`. */
  predicate Canonical(n: Name) {
    n.Custom? ==> WellKnown(n.s).Custom?
  }

  /** The name's string. */
  function Spelling(n: Name): string {
    if n.Custom? then n.s else WellKnownSpelling(n)
  }

  /** The canonical name a string spells. */
  function NameOf(s: string): (k: Name)
    ensures Canonical(k) && Spelling(k) == s
  {
    WellKnown(s)
  }

  /** Spelling a canonical name and reading it back gives the name:
      distinct canonical names have distinct spellings. */
  lemma NameOfSpelling(k: Name)
    requires Canonical(k)
    ensures NameOf(Spelling(k)) == k
  {
    if !k.Custom? {
      WellKnownRoundTrip(k);
    }
  }

  lemma WellKnownRoundTrip(n: Name)
    requires !n.Custom?
    ensures WellKnown(WellKnownSpelling(n)) == n
  {
    match n
    case Message =>
    case GLibDomain => assert "GLIB_DOMAIN"[0] != "MESSAGE"[0];
    case Priority => assert "PRIORITY"[0] != "MESSAGE"[0] && "PRIORITY"[0] != "GLIB_DOMAIN"[0];
    case CodeFunc => CodeFuncDistinct();
    case CodeFile => CodeFileDistinct();
    case CodePath => CodePathDistinct();
    case CodeLine => CodeLineDistinct();
    case PythonMessage => PythonDistinct(PythonMessage);
    case PythonModule => PythonDistinct(PythonModule);
    case PythonLogger => PythonDistinct(PythonLogger);
    case PythonThreadName => PythonDistinct(PythonThreadName);
    case PythonThreadId => PythonDistinct(PythonThreadId);
    case PythonExc => PythonDistinct(PythonExc);
    case PythonExcMessage => PythonDistinct(PythonExcMessage);
  }

  lemma CodeFuncDistinct()
    ensures WellKnown("CODE_FUNC") == CodeFunc
  {
    var s := "CODE_FUNC";
    assert s[0] != "MESSAGE"[0] && s[0] != "GLIB_DOMAIN"[0] && s[0] != "PRIORITY"[0];
  }

  lemma CodeFileDistinct()
    ensures WellKnown("CODE_FILE") == CodeFile
  {
    var s := "CODE_FILE";
    assert s[0] != "MESSAGE"[0] && s[0] != "GLIB_DOMAIN"[0] && s[0] != "PRIORITY"[0];
    assert s[6] != "CODE_FUNC"[6];
  }

  lemma CodePathDistinct()
    ensures WellKnown("CODE_PATH") == CodePath
  {
    var s := "CODE_PATH";
    assert s[0] != "MESSAGE"[0] && s[0] != "GLIB_DOMAIN"[0] && s[0] != "PRIORITY"[0];
    assert s[5] != "CODE_FUNC"[5] && s[5] != "CODE_FILE"[5];
  }

  lemma CodeLineDistinct()
    ensures WellKnown("CODE_LINE") == CodeLine
  {
    var s := "CODE_LINE";
    assert s[0] != "MESSAGE"[0] && s[0] != "GLIB_DOMAIN"[0] && s[0] != "PRIORITY"[0];
    assert s[5] != "CODE_FUNC"[5] && s[5] != "CODE_FILE"[5] && s[5] != "CODE_PATH"[5];
  }

  /** The PYTHON_ names differ from every earlier name in the chain. */
  lemma PythonDistinct(n: Name)
    requires n.PythonMessage? || n.PythonModule? || n.PythonLogger? || n.PythonThreadName? || n.PythonThreadId? || n.PythonExc? || n.PythonExcMessage?
    ensures WellKnown(WellKnownSpelling(n)) == n
  {
    var s := WellKnownSpelling(n);
    assert s[0] == 'P' && s[1] == 'Y';
    assert s[1] != "MESSAGE"[1] && s[1] != "GLIB_DOMAIN"[1] && s[1] != "PRIORITY"[1];
    assert s[0] != "CODE_FUNC"[0] && s[0] != "CODE_FILE"[0] && s[0] != "CODE_PATH"[0] && s[0] != "CODE_LINE"[0];
    match n
    case PythonMessage =>
    case PythonModule => assert s[8] != "PYTHON_MESSAGE"[8];
    case PythonLogger => assert s[7] != "PYTHON_MESSAGE"[7] && s[7] != "PYTHON_MODULE"[7];
    case PythonThreadName =>
      assert s[7] != "PYTHON_MESSAGE"[7] && s[7] != "PYTHON_MODULE"[7] && s[7] != "PYTHON_LOGGER"[7];
    case PythonThreadId =>
      assert s[7] != "PYTHON_MESSAGE"[7] && s[7] != "PYTHON_MODULE"[7] && s[7] != "PYTHON_LOGGER"[7];
      assert s[8] != "PYTHON_TNAME"[8];
    case PythonExc =>
      assert s[7] != "PYTHON_MESSAGE"[7] && s[7] != "PYTHON_MODULE"[7] && s[7] != "PYTHON_LOGGER"[7];
      assert s[7] != "PYTHON_TNAME"[7] && s[7] != "PYTHON_TID"[7];
    case PythonExcMessage =>
      assert s[7] != "PYTHON_MESSAGE"[7] && s[7] != "PYTHON_MODULE"[7] && s[7] != "PYTHON_LOGGER"[7];
      assert s[7] != "PYTHON_TNAME"[7] && s[7] != "PYTHON_TID"[7] && |s| != |"PYTHON_EXC"|;
  }
}

=== FILE: python2glib.dfy ===
/** Python -> GLib: `LoggerHandler` and `GLibWriterHandler` turn a Python
    `LogRecord` into a GLib domain, a GLib level and a field set, and
    encode the fields either as `GVariant`s (for `GLib.log_variant`) or as
    `GLogField` descriptors (for a GLib writer function).

    The field builders fill a dict in place, so they are methods; what a
    record's fields end up holding is also given by the reference
    functions `ComputedValue`, `MergedValue` and `WriterValue`, which the
    builders' contracts are stated against. */
module PythonToGLib {
  import opened Wrappers
  import opened Utf8
  import opened Dict
  import opened Fields
  import opened Levels
  import opened FieldNames
  import Text

  /** A handler's settings: what replaces the dots of a logger name, and
      what goes before and after the converted name. */
  datatype HandlerConfig = HandlerConfig(replaceModuleChar: string, logDomainPrefix: string, logDomainSuffix: string)

  const DefaultHandlerConfig := HandlerConfig("-", "", "")

  /** An exception class, by `__module__` and `__qualname__`. */
  datatype ExcType = ExcType(moduleName: string, qualname: string)

  /** `record.exc_info = (exc_type, exc, traceback)`: the class slot may be
      `None`, in which case the class of `exc` is used; `text` is `str(exc)`. */
  datatype ExcInfo = ExcInfo(excType: Option<ExcType>, valueType: ExcType, text: string)

  /** What `record.exc_info` can hold: `None`, another falsy object such
      as the `False` that `logger.info(msg, exc_info=False)` leaves there,
      or an exception triple. */
  datatype ExcInfoSlot = NoExcInfo | FalsyExcInfo | ExcTriple(info: ExcInfo)

  /** Unpacking something that is not a triple. */
  datatype UnpackError = UnpackTypeError

  /** The exception `_get_fields_exception` reads from the slot as the code
      writes it: anything but `None` is unpacked as a triple, so a falsy
      object such as `False` raises TypeError. */
  function ExcInfoAsWritten(slot: ExcInfoSlot): (r: Result<Option<ExcInfo>, UnpackError>)
    ensures r.Failure? <==> slot.FalsyExcInfo?
    ensures r.Success? ==> (r.value.Some? <==> slot.ExcTriple?)
    ensures slot.ExcTriple? ==> r == Success(Some(slot.info))
  {
    match slot
    case NoExcInfo => Success(None)
    case FalsyExcInfo => Failure(UnpackTypeError)
    case ExcTriple(e) => Success(Some(e))
  }

  /** The exception as logging's own formatter reads the slot, with
      `if record.exc_info:`: a falsy slot means no exception. This is the
      reading `LogRecord.excInfo` stands for. */
  function ExcInfoIntended(slot: ExcInfoSlot): (r: Option<ExcInfo>)
    ensures r.Some? <==> slot.ExcTriple?
    ensures r.Some? ==> r.value == slot.info
  {
    if slot.ExcTriple? then Some(slot.info) else None
  }

  /** The record's `glib_fields` attribute: missing, a dict, or something else. */
  datatype GLibFieldsAttr = Absent | DictAttr(fields: FieldDict) | NotADict

  /** The parts of a `logging.LogRecord` the handlers read. `formatted` is
      `self.format(record)` and `message` is `record.getMessage()`, both
      computed by the logging machinery; the call site and thread
      attributes are whatever objects the record holds (possibly `None`);
      `excInfo` is `exc_info` as `ExcInfoIntended` reads it. */
  datatype LogRecord = LogRecord(
    name: string,
    levelno: int,
    formatted: string,
    message: string,
    moduleName: string,
    funcName: FieldValue,
    pathname: FieldValue,
    lineno: FieldValue,
    threadName: FieldValue,
    thread: FieldValue,
    excInfo: Option<ExcInfo>,
    glibFields: GLibFieldsAttr)

  /** A `glib_fields` dict is a real dict whose keys are strings, each
      in its one representation. */
  predicate WellFormed(record: LogRecord) {
    record.glibFields.DictAttr? ==>
      && Valid(record.glibFields.fields)
      && forall k :: k in record.glibFields.fields.contents ==> Canonical(k)
  }

  /** The keys each builder assigns, in assignment order. */
  const BasicKeys: seq<Name> := [Message, CodeFunc, CodeFile, CodeLine]
  const MetadataKeys: seq<Name> := [PythonMessage, PythonModule, PythonLogger, PythonThreadName, PythonThreadId]
  const ExceptionKeys: seq<Name> := [PythonExc, PythonExcMessage]

  predicate IsBasicKey(k: Name) {
    k == Message || k == CodeFunc || k == CodeFile || k == CodeLine
  }

  predicate IsMetadataKey(k: Name) {
    k == PythonMessage || k == PythonModule || k == PythonLogger || k == PythonThreadName || k == PythonThreadId
  }

  predicate IsExceptionKey(k: Name) {
    k == PythonExc || k == PythonExcMessage
  }

  /** The keys `_get_fields` always provides. */
  predicate IsRequiredKey(k: Name) {
    IsBasicKey(k) || IsMetadataKey(k)
  }

  // ---------------------------------------------------------------------
  // Domain

  /** `_get_log_domain`: the logger name with its dots replaced, between
      prefix and suffix. */
  function LogDomain(cfg: HandlerConfig, record: LogRecord): (d: string)
    ensures cfg.logDomainPrefix <= d
    ensures |cfg.logDomainSuffix| <= |d| && d[|d| - |cfg.logDomainSuffix|..] == cfg.logDomainSuffix
    ensures '.' !in cfg.replaceModuleChar && '.' !in cfg.logDomainPrefix && '.' !in cfg.logDomainSuffix ==> '.' !in d
    ensures |cfg.replaceModuleChar| == 1 ==>
      |d| == |cfg.logDomainPrefix| + |record.name| + |cfg.logDomainSuffix| &&
      forall i :: 0 <= i < |record.name| ==>
        d[|cfg.logDomainPrefix| + i] == if record.name[i] == '.' then cfg.replaceModuleChar[0] else record.name[i]
  {
    var body := Text.Replace(record.name, '.', cfg.replaceModuleChar);
    var d := cfg.logDomainPrefix + body + cfg.logDomainSuffix;
    assert d[|d| - |cfg.logDomainSuffix|..] == cfg.logDomainSuffix;
    if |cfg.replaceModuleChar| == 1 then
      assert cfg.replaceModuleChar == [cfg.replaceModuleChar[0]];
      Text.ReplaceChar(record.name, '.', cfg.replaceModuleChar[0]);
      d
    else
      d
  }

  // ---------------------------------------------------------------------
  // What the fields hold

  /** As written, a record logged with `exc_info=False` makes the
      exception builder raise, where the intended reading sees no
      exception and the builder adds nothing. */
  lemma ExcInfoFalseRaises(record: LogRecord)
    requires record.excInfo == ExcInfoIntended(FalsyExcInfo)
    ensures ExcInfoAsWritten(FalsyExcInfo).Failure?
    ensures ComputedValue(record, PythonExc).None? && ComputedValue(record, PythonExcMessage).None?
  {
  }

  /** The intended reading agrees with the code wherever the code does
      not raise, and a record carrying it gets the exception pair exactly
      for an exception triple. */
  lemma ExcInfoIntendedFields(record: LogRecord, slot: ExcInfoSlot)
    requires record.excInfo == ExcInfoIntended(slot)
    ensures ExcInfoAsWritten(slot).Success? ==> ExcInfoAsWritten(slot).value == record.excInfo
    ensures ComputedValue(record, PythonExc).Some? <==> slot.ExcTriple?
    ensures slot.ExcTriple? ==>
      ComputedValue(record, PythonExc) == Some(Text(ExcTypeName(slot.info))) &&
      ComputedValue(record, PythonExcMessage) == Some(Text(slot.info.text))
  {
  }

  /** The fully qualified name of the exception's class. */
  function ExcTypeName(e: ExcInfo): string {
    var t := e.excType.GetOr(e.valueType);
    t.moduleName + "." + t.qualname
  }

  /** What `_get_fields` stores under each key before the `glib_fields`
      merge: MESSAGE and the call site, the metadata, and the exception
      pair only when the record has exception info. */
  function ComputedValue(record: LogRecord, k: Name): (r: Option<FieldValue>)
    ensures IsRequiredKey(k) ==> r.Some?
    ensures IsExceptionKey(k) ==> (r.Some? <==> record.excInfo.Some?)
    ensures r.Some? ==> IsRequiredKey(k) || IsExceptionKey(k)
  {
    match k
    case Message => Some(Text(record.formatted))
    case CodeFunc => Some(record.funcName)
    case CodeFile => Some(record.pathname)
    case CodeLine => Some(record.lineno)
    case PythonMessage => Some(Text(record.message))
    case PythonModule => Some(Text(record.moduleName))
    case PythonLogger => Some(Text(record.name))
    case PythonThreadName => Some(record.threadName)
    case PythonThreadId => Some(record.thread)
    case PythonExc => if record.excInfo.Some? then Some(Text(ExcTypeName(record.excInfo.value))) else None
    case PythonExcMessage => if record.excInfo.Some? then Some(Text(record.excInfo.value.text)) else None
    case _ => None
  }

  /** The order in which `_get_fields` assigns its keys. */
  function ComputedKeys(record: LogRecord): (ks: seq<Name>)
    ensures Distinct(ks)
    ensures forall k :: k in ks <==> ComputedValue(record, k).Some?
  {
    var ks := BasicKeys + MetadataKeys + if record.excInfo.Some? then ExceptionKeys else [];
    KeyListsDistinct(record.excInfo.Some?);
    ComputedKeysMembers(record, ks);
    ks
  }

  lemma KeyListsDistinct(withException: bool)
    ensures Distinct(BasicKeys + MetadataKeys + if withException then ExceptionKeys else [])
  {
    var ks := BasicKeys + MetadataKeys + if withException then ExceptionKeys else [];
    forall i, j | 0 <= i < j < |ks|
      ensures ks[i] != ks[j]
    {
      assert !ks[i].Custom? && !ks[j].Custom?;
    }
  }

  lemma ComputedKeysMembers(record: LogRecord, ks: seq<Name>)
    requires ks == BasicKeys + MetadataKeys + if record.excInfo.Some? then ExceptionKeys else []
    ensures forall k :: k in ks <==> ComputedValue(record, k).Some?
  {
    forall k
      ensures k in ks <==> ComputedValue(record, k).Some?
    {
      assert k in ks <==> IsRequiredKey(k) || (IsExceptionKey(k) && record.excInfo.Some?);
    }
  }

  /** What `_get_fields` returns under each key: a `glib_fields` entry
      wins over the computed value when the merge is on. */
  function MergedValue(record: LogRecord, updateFromRecord: bool, k: Name): (r: Option<FieldValue>)
    ensures IsRequiredKey(k) ==> r.Some?
  {
    if updateFromRecord && record.glibFields.DictAttr? && Has(record.glibFields.fields, k)
    then Get(record.glibFields.fields, k)
    else ComputedValue(record, k)
  }

  /** The order of the keys `_get_fields` returns: the computed keys, then
      the `glib_fields` keys that are new, in their own order. */
  function MergedKeys(record: LogRecord, updateFromRecord: bool): seq<Name> {
    var c := ComputedKeys(record);
    if updateFromRecord && record.glibFields.DictAttr? then c + Missing(Keys(record.glibFields.fields), c) else c
  }

  /** The merged order lists every key with a merged value exactly once. */
  lemma MergedKeysValues(record: LogRecord, updateFromRecord: bool)
    requires WellFormed(record)
    ensures Distinct(MergedKeys(record, updateFromRecord))
    ensures forall k :: k in MergedKeys(record, updateFromRecord) <==> MergedValue(record, updateFromRecord, k).Some?
  {
    var c := ComputedKeys(record);
    if updateFromRecord && record.glibFields.DictAttr? {
      var g := record.glibFields.fields;
      var extra := Missing(Keys(g), c);
      var ks := c + extra;
      assert Distinct(ks) by {
        forall i, j | 0 <= i < j < |ks|
          ensures ks[i] != ks[j]
        {
          if i < |c| && j >= |c| {
            assert ks[j] in extra;
          }
        }
      }
      forall k
        ensures k in ks <==> MergedValue(record, updateFromRecord, k).Some?
      {
        HasKeys(g, k);
      }
    }
  }

  /** What `GLibWriterHandler._get_fields` returns under each key: the
      merged value, and the domain under GLIB_DOMAIN when nothing else
      put a value there. */
  function WriterValue(cfg: HandlerConfig, record: LogRecord, updateFromRecord: bool, k: Name): (r: Option<FieldValue>)
    ensures IsRequiredKey(k) || k == GLibDomain ==> r.Some?
  {
    var m := MergedValue(record, updateFromRecord, k);
    if k == GLibDomain && m.None? then Some(Text(LogDomain(cfg, record))) else m
  }

  /** The order of the keys `GLibWriterHandler._get_fields` returns. */
  function WriterKeys(record: LogRecord, updateFromRecord: bool): (ks: seq<Name>)
    ensures WellFormed(record) ==> Distinct(ks)
  {
    var m := MergedKeys(record, updateFromRecord);
    assert WellFormed(record) ==> Distinct(m) by {
      if WellFormed(record) {
        MergedKeysValues(record, updateFromRecord);
      }
    }
    if MergedValue(record, updateFromRecord, GLibDomain).Some? then m else m + [GLibDomain]
  }

  /** Exactly the keys with a value are listed. */
  lemma WriterKeysValues(cfg: HandlerConfig, record: LogRecord, updateFromRecord: bool)
    requires WellFormed(record)
    ensures forall k :: k in WriterKeys(record, updateFromRecord) <==> WriterValue(cfg, record, updateFromRecord, k).Some?
  {
    MergedKeysValues(record, updateFromRecord);
  }

  /** Every listed key is in its one representation. */
  lemma WriterKeysCanonical(record: LogRecord, updateFromRecord: bool)
    requires WellFormed(record)
    ensures forall k :: k in WriterKeys(record, updateFromRecord) ==> Canonical(k)
  {
    MergedKeysValues(record, updateFromRecord);
    forall k | k in WriterKeys(record, updateFromRecord)
      ensures Canonical(k)
    {
      if k != GLibDomain {
        assert MergedValue(record, updateFromRecord, k).Some?;
        if !(updateFromRecord && record.glibFields.DictAttr? && Has(record.glibFields.fields, k)) {
          assert !k.Custom?;
        }
      }
    }
  }

  // ---------------------------------------------------------------------
  // Field builders

  /** `_get_fields_basic`: MESSAGE and the call site are assigned in turn
      (`None` stands for a new dict); every other key is untouched. */
  method FieldsBasic(record: LogRecord, fields: Option<FieldDict>) returns (r: FieldDict)
    ensures forall k :: Get(r, k) == if IsBasicKey(k) then ComputedValue(record, k) else Get(fields.GetOr(Empty()), k)
    ensures Valid(fields.GetOr(Empty())) ==> Valid(r)
    ensures var f := fields.GetOr(Empty());
      !Has(f, Message) && !Has(f, CodeFunc) && !Has(f, CodeFile) && !Has(f, CodeLine) ==> Keys(r) == Keys(f) + BasicKeys
  {
    var f := fields.GetOr(Empty());
    r := SetBasic(record, f);
    BasicValues(record, f);
    if Valid(f) {
      SetFourValid(f, Message, Text(record.formatted), CodeFunc, record.funcName,
                   CodeFile, record.pathname, CodeLine, record.lineno);
    }
    if !Has(f, Message) && !Has(f, CodeFunc) && !Has(f, CodeFile) && !Has(f, CodeLine) {
      SetFourFresh(f, Message, Text(record.formatted), CodeFunc, record.funcName,
                   CodeFile, record.pathname, CodeLine, record.lineno);
    }
  }

  /** The four assignments of `_get_fields_basic`. */
  function SetBasic(record: LogRecord, f: FieldDict): FieldDict {
    Set(Set(Set(Set(f, Message, Text(record.formatted)), CodeFunc, record.funcName), CodeFile, record.pathname),
        CodeLine, record.lineno)
  }

  lemma BasicValues(record: LogRecord, f: FieldDict)
    ensures forall k :: Get(SetBasic(record, f), k) == if IsBasicKey(k) then ComputedValue(record, k) else Get(f, k)
  {}

  /** `_get_fields_metadata`: the unformatted message, module, logger name
      and thread are assigned in turn; every other key is untouched. */
  method FieldsMetadata(record: LogRecord, fields: Option<FieldDict>) returns (r: FieldDict)
    ensures forall k :: Get(r, k) == if IsMetadataKey(k) then ComputedValue(record, k) else Get(fields.GetOr(Empty()), k)
    ensures Valid(fields.GetOr(Empty())) ==> Valid(r)
    ensures var f := fields.GetOr(Empty());
      (!Has(f, PythonMessage) && !Has(f, PythonModule) && !Has(f, PythonLogger) && !Has(f, PythonThreadName) &&
       !Has(f, PythonThreadId)) ==> Keys(r) == Keys(f) + MetadataKeys
  {
    var f := fields.GetOr(Empty());
    r := SetMetadata(record, f);
    MetadataValues(record, f);
    if Valid(f) {
      SetFiveValid(f, PythonMessage, Text(record.message), PythonModule, Text(record.moduleName),
                   PythonLogger, Text(record.name), PythonThreadName, record.threadName, PythonThreadId, record.thread);
    }
    if !Has(f, PythonMessage) && !Has(f, PythonModule) && !Has(f, PythonLogger) && !Has(f, PythonThreadName) &&
       !Has(f, PythonThreadId) {
      SetFiveFresh(f, PythonMessage, Text(record.message), PythonModule, Text(record.moduleName),
                   PythonLogger, Text(record.name), PythonThreadName, record.threadName, PythonThreadId, record.thread);
    }
  }

  /** The five assignments of `_get_fields_metadata`. */
  function SetMetadata(record: LogRecord, f: FieldDict): FieldDict {
    Set(Set(Set(Set(Set(f, PythonMessage, Text(record.message)), PythonModule, Text(record.moduleName)),
            PythonLogger, Text(record.name)), PythonThreadName, record.threadName), PythonThreadId, record.thread)
  }

  lemma MetadataValues(record: LogRecord, f: FieldDict)
    ensures forall k :: Get(SetMetadata(record, f), k) == if IsMetadataKey(k) then ComputedValue(record, k) else Get(f, k)
  {}

  /** `_get_fields_exception`: PYTHON_EXC and PYTHON_EXC_MESSAGE are
      assigned only when the record carries exception info; every other
      key is untouched. */
  method FieldsException(record: LogRecord, fields: Option<FieldDict>) returns (r: FieldDict)
    ensures record.excInfo.None? ==> r == fields.GetOr(Empty())
    ensures forall k ::
              Get(r, k) == if IsExceptionKey(k) && record.excInfo.Some? then ComputedValue(record, k) else Get(fields.GetOr(Empty()), k)
    ensures Valid(fields.GetOr(Empty())) ==> Valid(r)
    ensures var f := fields.GetOr(Empty());
      record.excInfo.Some? && !Has(f, PythonExc) && !Has(f, PythonExcMessage) ==> Keys(r) == Keys(f) + ExceptionKeys
  {
    var f := fields.GetOr(Empty());
    r := f;
    if record.excInfo.Some? {
      r := SetException(record.excInfo.value, f);
      ExceptionValues(record, f);
    }
  }

  function SetException(e: ExcInfo, f: FieldDict): FieldDict {
    Set(Set(f, PythonExc, Text(ExcTypeName(e))), PythonExcMessage, Text(e.text))
  }

  lemma ExceptionValues(record: LogRecord, f: FieldDict)
    requires record.excInfo.Some?
    ensures forall k :: Get(SetException(record.excInfo.value, f), k) == if IsExceptionKey(k) then ComputedValue(record, k) else Get(f, k)
    ensures Valid(f) ==> Valid(SetException(record.excInfo.value, f))
    ensures !Has(f, PythonExc) && !Has(f, PythonExcMessage) ==> Keys(SetException(record.excInfo.value, f)) == Keys(f) + ExceptionKeys
  {
    var e := record.excInfo.value;
    SetKeys(f, PythonExc, Text(ExcTypeName(e)));
    SetKeys(Set(f, PythonExc, Text(ExcTypeName(e))), PythonExcMessage, Text(e.text));
  }

  /** `_get_fields_record`: when `glib_fields` is a dict, its entries
      overwrite or extend `fields`; otherwise `fields` is returned as is. */
  method FieldsRecord(record: LogRecord, fields: Option<FieldDict>) returns (r: FieldDict)
    ensures !record.glibFields.DictAttr? ==> r == fields.GetOr(Empty())
    ensures forall k ::
              Get(r, k) == if record.glibFields.DictAttr? && Has(record.glibFields.fields, k)
                           then Get(record.glibFields.fields, k) else Get(fields.GetOr(Empty()), k)
    ensures record.glibFields.DictAttr? ==>
      Keys(r) == Keys(fields.GetOr(Empty())) + Missing(Keys(record.glibFields.fields), Keys(fields.GetOr(Empty())))
    ensures Valid(fields.GetOr(Empty())) && WellFormed(record) ==> Valid(r)
  {
    var f0 := fields.GetOr(Empty());
    r := f0;
    if record.glibFields.DictAttr? {
      r := Update(f0, record.glibFields.fields);
      UpdateKeys(f0, record.glibFields.fields);
    }
  }

  /** MESSAGE and the call site, then the metadata, on a new dict. */
  method RequiredFields(record: LogRecord) returns (m: FieldDict)
    ensures Valid(m)
    ensures Keys(m) == BasicKeys + MetadataKeys
    ensures forall k :: Get(m, k) == if IsRequiredKey(k) then ComputedValue(record, k) else None
  {
    var f0: FieldDict := Empty();
    assert Keys(f0) == [];
    var b := FieldsBasic(record, Some(f0));
    assert Keys(b) == BasicKeys;
    BasicOnly(record, b);
    m := FieldsMetadata(record, Some(b));
    forall k
      ensures Get(m, k) == if IsRequiredKey(k) then ComputedValue(record, k) else None
    {
      if !IsMetadataKey(k) {
        assert Get(m, k) == Get(b, k);
      }
    }
  }

  /** A dict holding only the basic fields lacks every metadata key. */
  lemma BasicOnly(record: LogRecord, b: FieldDict)
    requires forall k :: Get(b, k) == if IsBasicKey(k) then ComputedValue(record, k) else None
    ensures !Has(b, PythonMessage) && !Has(b, PythonModule) && !Has(b, PythonLogger)
    ensures !Has(b, PythonThreadName) && !Has(b, PythonThreadId)
  {
    assert Get(b, PythonMessage).None? && Get(b, PythonModule).None? && Get(b, PythonLogger).None?;
    assert Get(b, PythonThreadName).None? && Get(b, PythonThreadId).None?;
  }

  /** The first part of `LoggerHandler._get_fields`: the required fields,
      then the exception pair. */
  method ComputedFields(record: LogRecord) returns (c: FieldDict)
    ensures Valid(c)
    ensures Keys(c) == ComputedKeys(record)
    ensures forall k :: Get(c, k) == ComputedValue(record, k)
  {
    var m := RequiredFields(record);
    assert !Has(m, PythonExc) && !Has(m, PythonExcMessage) by {
      assert Get(m, PythonExc).None? && Get(m, PythonExcMessage).None?;
    }
    c := FieldsException(record, Some(m));
  }

  /** `LoggerHandler._get_fields`: the computed fields, then the
      `glib_fields` merge unless `update_from_record` is false. Every
      required key survives the merge, since a merge only adds or
      overwrites. */
  method GetFields(record: LogRecord, updateFromRecord: bool := true) returns (r: FieldDict)
    ensures forall k :: Get(r, k) == MergedValue(record, updateFromRecord, k)
    ensures forall k :: IsRequiredKey(k) ==> Has(r, k)
    ensures Keys(r) == MergedKeys(record, updateFromRecord)
    ensures WellFormed(record) ==> Valid(r)
  {
    var c := ComputedFields(record);
    r := c;
    if updateFromRecord {
      r := FieldsRecord(record, Some(c));
    }
  }

  /** `GLibWriterHandler._get_fields`: adds GLIB_DOMAIN, the record's
      domain, only when the fields do not already hold it; nothing else
      changes. */
  method WriterFields(cfg: HandlerConfig, record: LogRecord, updateFromRecord: bool := true) returns (r: FieldDict)
    ensures forall k :: Get(r, k) == WriterValue(cfg, record, updateFromRecord, k)
    ensures Has(r, GLibDomain)
    ensures forall k :: IsRequiredKey(k) ==> Has(r, k)
    ensures Keys(r) == WriterKeys(record, updateFromRecord)
    ensures WellFormed(record) ==> Valid(r)
  {
    var f := GetFields(record, updateFromRecord);
    r := f;
    if !Has(f, GLibDomain) {
      r := Set(f, GLibDomain, Text(LogDomain(cfg, record)));
      SetKeys(f, GLibDomain, Text(LogDomain(cfg, record)));
    }
  }

  // ---------------------------------------------------------------------
  // Variant encoding and LoggerHandler.emit

  /** The variant `_convert_fields_dict` stores for one value. */
  function ToVariant(v: FieldValue): (r: Variant)
    ensures v.Var? ==> r == v.v
    ensures v.Bytes? ==> r == VByteArray(v.b)
    ensures !v.Var? && !v.Bytes? ==> r == VString(Stringify(v))
  {
    match v
    case Var(x, _) => x
    case Bytes(b) => VByteArray(b)
    case _ => VString(Stringify(v))
  }

  /** The variant of a value, if there is one. */
  function VariantOf(v: Option<FieldValue>): Option<Variant> {
    match v
    case None => None
    case Some(x) => Some(ToVariant(x))
  }

  /** The result of `_convert_fields_dict`: the converted dict and the
      strings its NUL check warned about. */
  datatype VariantConversion = VariantConversion(variants: Dict<Variant>, nulWarnings: seq<string>)

  /** Whether the value is one whose string the NUL check looks at. */
  predicate IsStringified(v: FieldValue) {
    !v.Var? && !v.Bytes?
  }

  /** Whether the NUL check warns about the value. */
  predicate WarnsNul(v: FieldValue) {
    IsStringified(v) && Nul in Stringify(v)
  }

  /** The strings the NUL check of `_convert_fields_dict` warns about. */
  function NulWarnings(items: seq<Entry<FieldValue>>): (w: seq<string>)
    ensures forall x :: x in w ==> Nul in x
    ensures forall i :: 0 <= i < |items| && WarnsNul(items[i].value) ==> Stringify(items[i].value) in w
    ensures (forall i :: 0 <= i < |items| ==> !WarnsNul(items[i].value)) ==> w == []
    ensures forall x :: x in w ==> exists i :: 0 <= i < |items| && WarnsNul(items[i].value) && x == Stringify(items[i].value)
  {
    if |items| == 0 then []
    else
      var v := items[0].value;
      var rest := NulWarnings(items[1..]);
      assert forall i :: 1 <= i < |items| ==> items[1..][i - 1] == items[i];
      assert forall x :: x in rest ==> exists i :: 0 <= i < |items| && WarnsNul(items[i].value) && x == Stringify(items[i].value) by {
        forall x | x in rest
          ensures exists i :: 0 <= i < |items| && WarnsNul(items[i].value) && x == Stringify(items[i].value)
        {
          var j :| 0 <= j < |items[1..]| && WarnsNul(items[1..][j].value) && x == Stringify(items[1..][j].value);
          assert items[j + 1] == items[1..][j];
        }
      }
      (if WarnsNul(v) then [Stringify(v)] else []) + rest
  }

  /** `_convert_fields_dict`: same keys in the same order, each value
      converted; a string holding NUL is only reported, never cut. */
  function ConvertFieldsDict(fields: FieldDict): (r: VariantConversion)
    requires Valid(fields)
    ensures Valid(r.variants)
    ensures Keys(r.variants) == Keys(fields)
    ensures forall k :: Get(r.variants, k) == VariantOf(Get(fields, k))
    ensures forall x :: x in r.nulWarnings ==> Nul in x
    ensures forall k :: Has(fields, k) && WarnsNul(fields.contents[k]) ==> Stringify(fields.contents[k]) in r.nulWarnings
    ensures (forall k :: Has(fields, k) ==> !WarnsNul(fields.contents[k])) ==> r.nulWarnings == []
    ensures forall x :: x in r.nulWarnings ==> exists k :: Has(fields, k) && WarnsNul(fields.contents[k]) && x == Stringify(fields.contents[k])
  {
    var variants := Dict(fields.order, map k | k in fields.contents :: ToVariant(fields.contents[k]));
    DictNulWarnings(fields);
    VariantConversion(variants, NulWarnings(Items(fields)))
  }

  /** The NUL check over a dict's items warns exactly about its values
      that hold NUL once stringified. */
  lemma DictNulWarnings(fields: FieldDict)
    requires Valid(fields)
    ensures var w := NulWarnings(Items(fields));
      && (forall k :: Has(fields, k) && WarnsNul(fields.contents[k]) ==> Stringify(fields.contents[k]) in w)
      && ((forall k :: Has(fields, k) ==> !WarnsNul(fields.contents[k])) ==> w == [])
      && (forall x :: x in w ==> exists k :: Has(fields, k) && WarnsNul(fields.contents[k]) && x == Stringify(fields.contents[k]))
  {
    var items := Items(fields);
    forall x | x in NulWarnings(items)
      ensures exists k :: Has(fields, k) && WarnsNul(fields.contents[k]) && x == Stringify(fields.contents[k])
    {
      var i :| 0 <= i < |items| && WarnsNul(items[i].value) && x == Stringify(items[i].value);
      assert Get(fields, items[i].key) == Some(items[i].value);
    }
    forall k | Has(fields, k)
      ensures exists i :: 0 <= i < |items| && items[i].key == k
    {
      var i := IndexOf(fields.order, k);
      assert items[i].key == k;
    }
  }

  /** What `LoggerHandler.emit` hands to `GLib.log_variant`, together with
      whether it reported a missing MESSAGE and which strings held NUL. */
  datatype VariantCall = VariantCall(
    domain: string,
    level: LogLevelFlags,
    fields: Dict<Variant>,
    missingMessage: bool,
    nulWarnings: seq<string>)

  /** `LoggerHandler.emit`. The missing-MESSAGE diagnostic cannot fire:
      the merge only adds or overwrites keys, so MESSAGE is always there. */
  method Emit(cfg: HandlerConfig, record: LogRecord) returns (r: VariantCall)
    requires WellFormed(record)
    ensures r.domain == LogDomain(cfg, record)
    ensures r.level == LevelToGLib(record.levelno)
    ensures r.level != LevelError && r.level != LevelCritical
    ensures !r.missingMessage
    ensures Has(r.fields, Message)
    ensures Keys(r.fields) == MergedKeys(record, true)
    ensures forall k :: Get(r.fields, k) == VariantOf(MergedValue(record, true, k))
    ensures forall x :: x in r.nulWarnings ==> Nul in x
    ensures (forall k :: MergedValue(record, true, k).Some? ==> !WarnsNul(MergedValue(record, true, k).value)) ==>
      r.nulWarnings == []
    ensures forall x :: x in r.nulWarnings ==>
      exists k :: MergedValue(record, true, k).Some? && WarnsNul(MergedValue(record, true, k).value) && x == Stringify(MergedValue(record, true, k).value)
  {
    var fieldsDict := GetFields(record);
    var missing := !Has(fieldsDict, Message);
    assert IsRequiredKey(Message);
    var conv := ConvertFieldsDict(fieldsDict);
    LevelToGLibNeverFatal(record.levelno);
    r := VariantCall(LogDomain(cfg, record), LevelToGLib(record.levelno), conv.variants, missing, conv.nulWarnings);
  }

  // ---------------------------------------------------------------------
  // Descriptor encoding and GLibWriterHandler.emit

  /** The descriptor `_convert_fields` builds for one value: a `str` as a
      NUL-terminated UTF-8 buffer with length -1, `bytes` as themselves
      with their length, anything else as the UTF-8 bytes of `str(value)`
      with their length. */
  function ConvertField(key: Name, v: FieldValue): (f: LogField)
    ensures f.key == Spelling(key) && f.value.Address? && Readable(f)
    ensures v.Text? ==> f.length == -1 && f.value.mem == Encode(v.s) + [0]
    ensures v.Bytes? ==> f.length == |v.b| && f.value.mem == v.b
    ensures !v.Text? && !v.Bytes? ==> f.length == |Encode(Stringify(v))| && f.value.mem == Encode(Stringify(v))
  {
    match v
    case Text(s) => LogField(Spelling(key), -1, Address(Encode(s) + [0]))
    case Bytes(b) => LogField(Spelling(key), |b|, Address(b))
    case _ =>
      var b := Encode(Stringify(v));
      LogField(Spelling(key), |b|, Address(b))
  }

  /** `_convert_fields`: one descriptor per entry, in the dict's order. */
  function ConvertFields(fields: FieldDict): (r: seq<LogField>)
    requires Valid(fields)
    ensures |r| == |Keys(fields)|
    ensures forall i :: 0 <= i < |r| ==> r[i] == ConvertField(Keys(fields)[i], fields.contents[Keys(fields)[i]])
  {
    var items := Items(fields);
    seq(|items|, i requires 0 <= i < |items| => ConvertField(items[i].key, items[i].value))
  }

  /** `GLibWriterHandler._get_logfields`: the descriptors of the writer's
      fields, one per key in the writer's order, under pairwise distinct
      names. */
  method GetLogFields(cfg: HandlerConfig, record: LogRecord) returns (r: seq<LogField>)
    requires WellFormed(record)
    ensures |r| == |WriterKeys(record, true)|
    ensures forall i :: 0 <= i < |r| ==>
      var k := WriterKeys(record, true)[i];
      WriterValue(cfg, record, true, k).Some? && r[i] == ConvertField(k, WriterValue(cfg, record, true, k).value)
    ensures forall i, j :: 0 <= i < j < |r| ==> r[i].key != r[j].key
  {
    var f := WriterFields(cfg, record);
    r := ConvertFields(f);
    WriterKeysCanonical(record, true);
    forall i, j | 0 <= i < j < |r|
      ensures r[i].key != r[j].key
    {
      NameOfSpelling(Keys(f)[i]);
      NameOfSpelling(Keys(f)[j]);
    }
  }

  /** What `GLibWriterHandler.emit` passes to its writer function (the
      user data is passed through and not modelled). */
  datatype WriterCall = WriterCall(level: LogLevelFlags, fields: seq<LogField>)

  /** `GLibWriterHandler.emit`: the level and the descriptors, among them
      one named MESSAGE and one named GLIB_DOMAIN, every one readable. */
  method WriterEmit(cfg: HandlerConfig, record: LogRecord) returns (r: WriterCall)
    requires WellFormed(record)
    ensures r.level == LevelToGLib(record.levelno)
    ensures r.level != LevelError && r.level != LevelCritical
    ensures forall i :: 0 <= i < |r.fields| ==> Readable(r.fields[i])
    ensures exists i :: 0 <= i < |r.fields| && r.fields[i].key == "MESSAGE"
    ensures exists i :: 0 <= i < |r.fields| && r.fields[i].key == "GLIB_DOMAIN"
    ensures |r.fields| == |WriterKeys(record, true)|
    ensures forall i :: 0 <= i < |r.fields| ==>
      var k := WriterKeys(record, true)[i];
      WriterValue(cfg, record, true, k).Some? && r.fields[i] == ConvertField(k, WriterValue(cfg, record, true, k).value)
    ensures forall i, j :: 0 <= i < j < |r.fields| ==> r.fields[i].key != r.fields[j].key
  {
    var descs := GetLogFields(cfg, record);
    var ks := WriterKeys(record, true);
    WriterKeysValues(cfg, record, true);
    assert IsRequiredKey(Message);
    var m := IndexOf(ks, Message);
    var g := IndexOf(ks, GLibDomain);
    assert descs[m].key == "MESSAGE" && descs[g].key == "GLIB_DOMAIN";
    LevelToGLibNeverFatal(record.levelno);
    r := WriterCall(LevelToGLib(record.levelno), descs);
  }
}

=== FILE: roundtrip.dfy ===
/** What survives the trip from `GLibWriterHandler` to
    `GLibToPythonLogger.glibToPythonLogWriterFunc`: the descriptors the
    egress side builds, read back by the ingress side. */
module RoundTrip {
  import opened Wrappers
  import opened Utf8
  import opened Dict
  import opened Fields
  import opened Levels
  import opened FieldNames
  import opened PythonToGLib
  import opened GLibToPython
  import Text

  /** The value the ingress side reads for one value the egress side
      sent: a `str` cut at its first NUL (the C string ends there),
      `bytes` unchanged, anything else as the bytes of its `str()`. */
  function TransportValue(v: FieldValue): FieldValue {
    match v
    case Text(s) => Text(TruncateAtNul(s))
    case Bytes(b) => Bytes(b)
    case _ => Bytes(Encode(Stringify(v)))
  }

  /** A dict after the trip: the same keys in the same order, each value transported. */
  function Transported(d: FieldDict): FieldDict {
    Dict(d.order, map k | k in d.contents :: TransportValue(d.contents[k]))
  }

  /** One descriptor of `_convert_fields` read back by `_fields_to_dict`. */
  lemma DecodeConvertField(k: Name, v: FieldValue)
    ensures Readable(ConvertField(k, v))
    ensures DecodeField(ConvertField(k, v)) == Success(Some(TransportValue(v)))
    ensures v.Text? && Nul !in v.s ==> TransportValue(v) == v
    ensures v.Bytes? ==> TransportValue(v) == v
    ensures !v.Text? && !v.Bytes? ==> TransportValue(v).Bytes?
  {
    var f := ConvertField(k, v);
    match v
    case Text(s) =>
      TakeUntilNulEncode(s, [0]);
      DecodeEncode(TruncateAtNul(s));
    case Bytes(b) =>
      assert b[..|b|] == b;
    case _ =>
      var b := Encode(Stringify(v));
      assert b[..|b|] == b;
  }

  /** The descriptors for keys `ks` in turn, with values from `vals`. */
  function DescriptorsOf(ks: seq<Name>, vals: map<Name, FieldValue>): (fs: seq<LogField>)
    requires forall k :: k in ks ==> k in vals
    ensures |fs| == |ks|
  {
    seq(|ks|, i requires 0 <= i < |ks| => ConvertField(ks[i], vals[ks[i]]))
  }

  /** The dict of the transported values for keys `ks`, in that order. */
  function TransportedOf(ks: seq<Name>, vals: map<Name, FieldValue>): FieldDict
    requires forall k :: k in ks ==> k in vals
  {
    Dict(ks, map k | k in ks :: TransportValue(vals[k]))
  }

  /** One more distinct key assigns its transported value last. */
  lemma TransportedSnoc(ks: seq<Name>, vals: map<Name, FieldValue>)
    requires |ks| > 0 && ks[|ks| - 1] !in ks[..|ks| - 1]
    requires forall k :: k in ks ==> k in vals
    ensures var last := ks[|ks| - 1];
      Set(TransportedOf(ks[..|ks| - 1], vals), last, TransportValue(vals[last])) == TransportedOf(ks, vals)
  {
    var init := ks[..|ks| - 1];
    var last := ks[|ks| - 1];
    assert init + [last] == ks;
    var m := map k | k in init :: TransportValue(vals[k]);
    assert m[last := TransportValue(vals[last])] == map k | k in ks :: TransportValue(vals[k]);
  }

  /** `_fields_to_dict` on one more descriptor assigns its value last. */
  lemma FieldsToDictSnoc(fs: seq<LogField>, d: FieldDict, v: FieldValue)
    requires |fs| > 0 && AllReadable(fs)
    requires FieldsToDict(fs[..|fs| - 1]) == Success(d)
    requires DecodeField(fs[|fs| - 1]) == Success(Some(v))
    ensures FieldsToDict(fs) == Success(Set(d, NameOf(fs[|fs| - 1].key), v))
  {}

  /** Every descriptor `_convert_fields` builds can be read. */
  lemma DescriptorsReadable(ks: seq<Name>, vals: map<Name, FieldValue>)
    requires forall k :: k in ks ==> k in vals
    ensures AllReadable(DescriptorsOf(ks, vals))
  {}

  /** The descriptors of all but the last key, and the last key's. */
  lemma DescriptorsSnoc(ks: seq<Name>, vals: map<Name, FieldValue>)
    requires |ks| > 0 && forall k :: k in ks ==> k in vals
    ensures var n := |ks|; var fs := DescriptorsOf(ks, vals);
      fs[..n - 1] == DescriptorsOf(ks[..n - 1], vals) && fs[n - 1] == ConvertField(ks[n - 1], vals[ks[n - 1]])
  {
    var n := |ks|;
    assert DescriptorsOf(ks, vals)[..n - 1] == DescriptorsOf(ks[..n - 1], vals);
  }

  /** Descriptors for distinct keys read back into the dict of their transported values. */
  lemma {:induction false} DecodeDescriptors(ks: seq<Name>, vals: map<Name, FieldValue>)
    requires Distinct(ks)
    requires forall k :: k in ks ==> k in vals && Canonical(k)
    ensures AllReadable(DescriptorsOf(ks, vals))
    ensures FieldsToDict(DescriptorsOf(ks, vals)) == Success(TransportedOf(ks, vals))
    decreases |ks|
  {
    DescriptorsReadable(ks, vals);
    if |ks| == 0 {
      assert TransportedOf(ks, vals) == Empty();
    } else {
      var n := |ks|;
      var init := ks[..n - 1];
      var last := ks[n - 1];
      assert Distinct(init) && last !in init by {
        assert forall i :: 0 <= i < n - 1 ==> init[i] == ks[i];
      }
      DescriptorsSnoc(ks, vals);
      DecodeDescriptors(init, vals);
      DecodeConvertField(last, vals[last]);
      NameOfSpelling(last);
      FieldsToDictSnoc(DescriptorsOf(ks, vals), TransportedOf(init, vals), TransportValue(vals[last]));
      TransportedSnoc(ks, vals);
    }
  }

  /** `_convert_fields` lists the descriptors of the dict's keys in order. */
  lemma ConvertFieldsDescriptors(d: FieldDict)
    requires Valid(d)
    ensures ConvertFields(d) == DescriptorsOf(d.order, d.contents)
  {}

  /** `_fields_to_dict(_convert_fields(d))` is `d` with every value
      transported: same keys, same order. */
  lemma FieldsToDictConvertFields(d: FieldDict)
    requires Valid(d)
    requires forall k :: k in d.contents ==> Canonical(k)
    ensures AllReadable(ConvertFields(d))
    ensures FieldsToDict(ConvertFields(d)) == Success(Transported(d))
  {
    ConvertFieldsDescriptors(d);
    DecodeDescriptors(d.order, d.contents);
    TransportedInOrder(d);
  }

  /** Transporting a dict key by key in its order is transporting the dict. */
  lemma TransportedInOrder(d: FieldDict)
    requires Valid(d)
    ensures TransportedOf(d.order, d.contents) == Transported(d)
  {
    assert (map k | k in d.order :: TransportValue(d.contents[k])) == map k | k in d.contents :: TransportValue(d.contents[k]);
  }

  /** `_get_logger_name` undoes `_get_log_domain` with the default
      settings on both sides, for names without '-'. */
  lemma LoggerNameInvertsDomain(record: LogRecord, fields: FieldDict)
    requires '-' !in record.name
    requires Get(fields, GLibDomain) == Some(Text(LogDomain(DefaultHandlerConfig, record)))
    ensures LoggerName(DefaultLoggerConfig, fields) == Success(record.name)
  {
    var body := Text.Replace(record.name, '.', "-");
    assert "" + body + "" == body;
    assert LogDomain(DefaultHandlerConfig, record) == body;
    var back := Text.Replace(body, '-', ".");
    Text.ReplaceInverse(record.name, '.', '-');
    assert "" + back + "" == back;
  }

  /** The old-style log function, called with the domain the egress side
      computes for a record, dispatches a record under the original
      logger name (default settings, names without '-'), with the message
      it was given and the level of the flags. */
  lemma LogFuncInvertsDomain(record: LogRecord, flags: LogLevelFlags, message: string, handleRaises: bool)
    requires '-' !in record.name
    ensures var r := LogFunc(DefaultLoggerConfig, Some(LogDomain(DefaultHandlerConfig, record)), flags, message, handleRaises);
      && r.Some? && r.value.name == record.name && r.value.msg == Text(message)
      && r.value.levelno == FlagsToLevel(flags)
  {
    var domain := LogDomain(DefaultHandlerConfig, record);
    var fields := LogFuncFields(Some(domain), message);
    LoggerNameInvertsDomain(record, fields);
  }

  /** The Python level a record comes back with: its band's level. */
  function Band(level: int): int {
    if level >= Warning then Warning else if level >= Info then Info else Debug
  }

  /** A value that may be absent, transported when present. */
  function TransportOpt(o: Option<FieldValue>): Option<FieldValue> {
    if o.Some? then Some(TransportValue(o.value)) else None
  }

  /** The ingress side holds what the egress writer with settings `cfg`
      sent, each value transported. */
  ghost predicate Arrived(cfg: HandlerConfig, record: LogRecord, fields: FieldDict) {
    forall k :: Get(fields, k) == TransportOpt(WriterValue(cfg, record, true, k))
  }

  /** The logger name read back: always a name, and the record's own when
      it holds neither NUL nor '-'. */
  lemma ArrivedName(record: LogRecord, fields: FieldDict)
    requires !record.glibFields.DictAttr? && Arrived(DefaultHandlerConfig, record, fields)
    ensures LoggerName(DefaultLoggerConfig, fields).Success?
    ensures '-' !in record.name && Nul !in record.name ==> LoggerName(DefaultLoggerConfig, fields) == Success(record.name)
  {
    var domain := LogDomain(DefaultHandlerConfig, record);
    assert Get(fields, GLibDomain) == Some(Text(TruncateAtNul(domain)));
    if '-' !in record.name && Nul !in record.name {
      assert Nul !in domain;
      LoggerNameInvertsDomain(record, fields);
    }
  }

  /** The call site read back: an integer line number comes back as
      itself, and there is never a path, because CODE_PATH is not sent. */
  lemma ArrivedLocation(record: LogRecord, fields: FieldDict)
    requires !record.glibFields.DictAttr? && Arrived(DefaultHandlerConfig, record, fields)
    ensures record.lineno.Int? ==> GetCodeLocation(fields) == Success(CodeLocation(None, Some(record.lineno.n), Some(TransportValue(record.funcName))))
    ensures GetCodeLocation(fields).Success? ==>
      GetCodeLocation(fields).value.pathName.None? && GetCodeLocation(fields).value.funcName == Some(TransportValue(record.funcName))
  {
    assert Get(fields, CodePath) == None;
    assert Get(fields, CodeFunc) == Some(TransportValue(record.funcName));
    if record.lineno.Int? {
      var n := record.lineno.n;
      var line := Get(fields, CodeLine);
      assert line == Some(Bytes(Encode(Text.IntToString(n))));
      Text.ParseIntBytesToString(n);
      assert ToInt(line.value) == Success(n);
      assert LineNumber(line) == Success(Some(n));
    }
  }

  /** The message read back: the formatted message up to its first NUL. */
  lemma ArrivedMessage(record: LogRecord, fields: FieldDict)
    requires !record.glibFields.DictAttr? && Arrived(DefaultHandlerConfig, record, fields)
    ensures GetMessage(fields) == Text(TruncateAtNul(record.formatted))
  {
    assert Get(fields, Message) == Some(Text(TruncateAtNul(record.formatted)));
  }

  /** The record `_get_record` builds from what arrived, with the flags
      the egress side sent: the level of the band, the message up to its
      first NUL, the name (for names without NUL and '-'), the line
      number, no path. */
  lemma ArrivedRecord(record: LogRecord, fields: FieldDict, flags: LogLevelFlags)
    requires !record.glibFields.DictAttr? && Arrived(DefaultHandlerConfig, record, fields)
    requires flags == LevelToGLib(record.levelno)
    ensures record.lineno.Int? ==> GetRecord(DefaultLoggerConfig, flags, fields).Success?
    ensures GetRecord(DefaultLoggerConfig, flags, fields).Success? ==>
      var r := GetRecord(DefaultLoggerConfig, flags, fields).value;
      && r.levelno == Band(record.levelno)
      && r.msg == Text(TruncateAtNul(record.formatted))
      && ('-' !in record.name && Nul !in record.name ==> r.name == record.name)
      && r.pathName.None?
      && r.funcName == Some(TransportValue(record.funcName))
      && (record.lineno.Int? ==> r.lineNo == Some(record.lineno.n))
  {
    ArrivedName(record, fields);
    ArrivedLocation(record, fields);
    ArrivedMessage(record, fields);
    LevelIgnoresFields(fields, fields, flags);
    LevelRoundTrip(record.levelno);
  }

  /** `GLibWriterHandler.emit` with settings `cfg`, its descriptors read
      back by `_fields_to_dict`: the dict that arrives lists the writer's
      keys in the writer's order and holds the transported values. */
  method SendFields(cfg: HandlerConfig, record: LogRecord) returns (call: WriterCall, fields: FieldDict)
    requires WellFormed(record)
    ensures call.level == LevelToGLib(record.levelno)
    ensures AllReadable(call.fields) && FieldsToDict(call.fields) == Success(fields)
    ensures Keys(fields) == WriterKeys(record, true)
    ensures Arrived(cfg, record, fields)
  {
    call := WriterEmit(cfg, record);
    var f := WriterFields(cfg, record);
    EmitConvertsWriterFields(cfg, record, f, call.fields);
    WriterFieldsCanonical(record, f);
    FieldsToDictConvertFields(f);
    fields := Transported(f);
    TransportedArrives(cfg, record, f);
  }

  /** The descriptors `emit` passes are `_convert_fields` of the writer's fields. */
  lemma EmitConvertsWriterFields(cfg: HandlerConfig, record: LogRecord, f: FieldDict, descs: seq<LogField>)
    requires Valid(f) && Keys(f) == WriterKeys(record, true)
    requires forall k :: Get(f, k) == WriterValue(cfg, record, true, k)
    requires |descs| == |WriterKeys(record, true)|
    requires forall i :: 0 <= i < |descs| ==>
      var k := WriterKeys(record, true)[i];
      WriterValue(cfg, record, true, k).Some? && descs[i] == ConvertField(k, WriterValue(cfg, record, true, k).value)
    ensures descs == ConvertFields(f)
  {
    var c := ConvertFields(f);
    forall i | 0 <= i < |descs|
      ensures descs[i] == c[i]
    {
      var k := Keys(f)[i];
      assert Get(f, k) == WriterValue(cfg, record, true, k);
    }
  }

  /** The writer's keys are canonical. */
  lemma WriterFieldsCanonical(record: LogRecord, f: FieldDict)
    requires WellFormed(record) && Valid(f) && Keys(f) == WriterKeys(record, true)
    ensures forall k :: k in f.contents ==> Canonical(k)
  {
    WriterKeysCanonical(record, true);
  }

  /** Transporting the writer's fields is what arrives. */
  lemma TransportedArrives(cfg: HandlerConfig, record: LogRecord, f: FieldDict)
    requires forall k :: Get(f, k) == WriterValue(cfg, record, true, k)
    ensures Arrived(cfg, record, Transported(f))
  {
    forall k
      ensures Get(Transported(f), k) == TransportOpt(WriterValue(cfg, record, true, k))
    {
      assert Get(f, k) == WriterValue(cfg, record, true, k);
    }
  }

  /** `GLibWriterHandler.emit` feeding `glibToPythonLogWriterFunc`, both
      with their default settings, for a record without `glib_fields`.
      The record that comes back has the level of its band, the formatted
      message and the logger name (when neither holds NUL and the name no
      '-'), the line number, but no path: the egress side writes
      CODE_FILE and the ingress side reads CODE_PATH. */
  method WriterRoundTrip(record: LogRecord, handleRaises: bool) returns (call: WriterCall, out: WriterResult)
    requires !record.glibFields.DictAttr?
    ensures call.level == LevelToGLib(record.levelno)
    ensures record.lineno.Int? ==> out.dispatched.Some? && (out.output == Handled <==> !handleRaises)
    ensures out.dispatched.Some? ==>
      var r := out.dispatched.value;
      && r.levelno == Band(record.levelno)
      && r.msg == Text(TruncateAtNul(record.formatted))
      && (Nul !in record.formatted ==> r.msg == Text(record.formatted))
      && ('-' !in record.name && Nul !in record.name ==> r.name == record.name)
      && r.pathName.None?
      && r.funcName == Some(TransportValue(record.funcName))
      && (record.lineno.Int? ==> r.lineNo == Some(record.lineno.n))
      && Keys(r.glibFields) == WriterKeys(record, true)
      && Arrived(DefaultHandlerConfig, record, r.glibFields)
  {
    var fields;
    call, fields := SendFields(DefaultHandlerConfig, record);
    ArrivedRecord(record, fields, call.level);
    out := WriterFunc(DefaultLoggerConfig, call.level, Descriptors(call.fields), handleRaises);
  }
}

=== FILE: text.dfy ===
/** The few Python string operations the bridge relies on: `str.replace`
    with a one-character pattern, `str()` of an integer, and `int()` of a
    `str` or `bytes` in base 10. */
module Text {
  import opened Wrappers
  import opened Utf8

  /** `s.replace(target, repl)`: every occurrence of `target` becomes `repl`. */
  function Replace(s: string, target: char, repl: string): (r: string)
    ensures target !in repl ==> target !in r
    ensures forall c :: c in r ==> (c in s && c != target) || c in repl
    ensures forall c :: c in s && c != target ==> c in r
  {
    if |s| == 0 then []
    else (if s[0] == target then repl else [s[0]]) + Replace(s[1..], target, repl)
  }

  /** Replacing one character by another changes exactly those positions. */
  lemma {:induction false} ReplaceChar(s: string, target: char, c: char)
    ensures |Replace(s, target, [c])| == |s|
    ensures forall i :: 0 <= i < |s| ==> Replace(s, target, [c])[i] == if s[i] == target then c else s[i]
  {
    if |s| > 0 {
      ReplaceChar(s[1..], target, c);
    }
  }

  /** Swapping `a` for `b` is undone by swapping `b` for `a` when `b` did not occur. */
  lemma ReplaceInverse(s: string, a: char, b: char)
    requires b !in s
    ensures Replace(Replace(s, a, [b]), b, [a]) == s
  {
    var t := Replace(s, a, [b]);
    ReplaceChar(s, a, b);
    ReplaceChar(t, b, a);
    var u := Replace(t, b, [a]);
    assert forall i :: 0 <= i < |s| ==> u[i] == s[i] by {
      forall i | 0 <= i < |s|
        ensures u[i] == s[i]
      {
        assert s[i] != b;
      }
    }
  }

  // ---------------------------------------------------------------------
  // str(int)

  predicate IsDigit(c: char) {
    '0' <= c <= '9'
  }

  function DigitChar(d: int): (c: char)
    requires 0 <= d < 10
    ensures IsDigit(c)
  {
    ('0' as int + d) as char
  }

  function DigitValue(c: char): (d: nat)
    requires IsDigit(c)
    ensures d < 10 && DigitChar(d) == c
  {
    c as int - '0' as int
  }

  /** The decimal digits of `n`, without leading zeros. */
  function NatToString(n: nat): (s: string)
    ensures |s| > 0
    ensures forall i :: 0 <= i < |s| ==> IsDigit(s[i])
    decreases n
  {
    if n < 10 then [DigitChar(n)] else NatToString(n / 10) + [DigitChar(n % 10)]
  }

  /** `str(n)` for a Python `int`. */
  function IntToString(n: int): (s: string)
    ensures |s| > 0
    ensures forall i :: 0 <= i < |s| ==> IsDigit(s[i]) || (i == 0 && s[i] == '-')
  {
    if n < 0 then "-" + NatToString(-n) else NatToString(n)
  }

  // ---------------------------------------------------------------------
  // int(str) and int(bytes)

  /** The ASCII whitespace `int()` strips around its argument. */
  predicate IsSpace(c: char) {
    c == ' ' || c == '\t' || c == '\n' || c == '\r' || c == '\U{0B}' || c == '\U{0C}'
  }

  function StripLeft(s: string): (t: string)
    ensures |t| <= |s|
    ensures |s| > 0 && !IsSpace(s[0]) ==> t == s
  {
    if |s| > 0 && IsSpace(s[0]) then StripLeft(s[1..]) else s
  }

  function StripRight(s: string): (t: string)
    ensures |t| <= |s|
    ensures |s| > 0 && !IsSpace(s[|s| - 1]) ==> t == s
  {
    if |s| > 0 && IsSpace(s[|s| - 1]) then StripRight(s[..|s| - 1]) else s
  }

  /** One or more digits, where single underscores may separate two digits
      (`1_000`), as Python's integer literal grammar allows. */
  predicate DigitGroups(s: string)
    decreases |s|
  {
    && |s| > 0
    && IsDigit(s[0])
    && (|s| == 1 || DigitGroups(s[1..]) || (|s| >= 3 && s[1] == '_' && DigitGroups(s[2..])))
  }

  function RemoveUnderscores(s: string): (t: string)
    ensures '_' !in s ==> t == s
  {
    if |s| == 0 then [] else (if s[0] == '_' then [] else [s[0]]) + RemoveUnderscores(s[1..])
  }

  lemma {:induction false} DigitGroupsDigitsOnly(s: string)
    requires DigitGroups(s)
    ensures var t := RemoveUnderscores(s); |t| > 0 && forall i :: 0 <= i < |t| ==> IsDigit(t[i])
    decreases |s|
  {
    if |s| > 1 {
      if DigitGroups(s[1..]) {
        DigitGroupsDigitsOnly(s[1..]);
      } else {
        DigitGroupsDigitsOnly(s[2..]);
        assert s[1..][0] == '_';
        assert RemoveUnderscores(s[1..]) == RemoveUnderscores(s[2..]) by {
          assert s[1..][1..] == s[2..];
        }
      }
    }
  }

  /** The number a string of decimal digits denotes. */
  function DigitsValue(s: string): nat
    requires forall i :: 0 <= i < |s| ==> IsDigit(s[i])
  {
    if |s| == 0 then 0 else DigitsValue(s[..|s| - 1]) * 10 + DigitValue(s[|s| - 1])
  }

  function ParseDigits(s: string): Option<nat> {
    if DigitGroups(s) then
      DigitGroupsDigitsOnly(s);
      Some(DigitsValue(RemoveUnderscores(s)))
    else None
  }

  /** `int(s)` for a `str`; `None` stands for the `ValueError`. */
  function ParseInt(s: string): Option<int> {
    var t := StripRight(StripLeft(s));
    if |t| > 0 && (t[0] == '-' || t[0] == '+') then
      match ParseDigits(t[1..])
      case None => None
      case Some(n) => var v: int := n; Some(if t[0] == '-' then -v else v)
    else
      match ParseDigits(t)
      case None => None
      case Some(n) => var v: int := n; Some(v)
  }

  /** The characters of an ASCII byte string. */
  function AsciiChars(b: seq<Byte>): (s: string)
    requires forall i :: 0 <= i < |b| ==> b[i] < 0x80
    ensures |s| == |b|
    ensures forall i :: 0 <= i < |b| ==> s[i] as int == b[i]
  {
    if |b| == 0 then [] else [b[0] as char] + AsciiChars(b[1..])
  }

  /** `int(b)` for a `bytes` object: only ASCII can be a number. */
  function ParseIntBytes(b: seq<Byte>): Option<int> {
    if forall i :: 0 <= i < |b| ==> b[i] < 0x80 then ParseInt(AsciiChars(b)) else None
  }

  // ---------------------------------------------------------------------
  // Round trips

  lemma {:induction false} DigitsValueNatToString(n: nat)
    ensures DigitsValue(NatToString(n)) == n
    decreases n
  {
    var s := NatToString(n);
    if n >= 10 {
      DigitsValueNatToString(n / 10);
      assert s[..|s| - 1] == NatToString(n / 10);
      assert DigitValue(s[|s| - 1]) == n % 10;
    }
  }

  lemma {:induction false} AllDigitsGroups(s: string)
    requires |s| > 0 && forall i :: 0 <= i < |s| ==> IsDigit(s[i])
    ensures DigitGroups(s)
    decreases |s|
  {
    if |s| > 1 {
      AllDigitsGroups(s[1..]);
    }
  }

  /** The digits of a natural number read back as that number. */
  lemma {:induction false} ParseDigitsNatToString(n: nat)
    ensures ParseDigits(NatToString(n)) == Some(n)
  {
    var digits := NatToString(n);
    AllDigitsGroups(digits);
    DigitsValueNatToString(n);
    assert '_' !in digits;
  }

  /** `str()` of an integer has no surrounding whitespace to strip. */
  lemma StripIntToString(n: int)
    ensures StripRight(StripLeft(IntToString(n))) == IntToString(n)
  {
    var s := IntToString(n);
    assert !IsSpace(s[0]) && !IsSpace(s[|s| - 1]);
  }

  /** `int(str(n)) == n`. */
  lemma ParseIntToString(n: int)
    ensures ParseInt(IntToString(n)) == Some(n)
  {
    StripIntToString(n);
    if n < 0 {
      ParseNegative(n);
    } else {
      ParseNonNegative(n);
    }
  }

  lemma {:induction false} ParseNegative(n: int)
    requires n < 0
    requires StripRight(StripLeft(IntToString(n))) == IntToString(n)
    ensures ParseInt(IntToString(n)) == Some(n)
  {
    var digits := NatToString(-n);
    var s := IntToString(n);
    assert s == "-" + digits;
    ParseDigitsNatToString(-n);
    ParseSigned(s, digits, -n);
  }

  /** A minus sign followed by digits, with nothing to strip, parses to
      the negated value. */
  lemma ParseSigned(s: string, digits: string, v: nat)
    requires s == "-" + digits && StripRight(StripLeft(s)) == s
    requires ParseDigits(digits) == Some(v)
    ensures ParseInt(s) == Some(-(v as int))
  {
    assert s[1..] == digits;
  }

  lemma {:induction false} ParseNonNegative(n: int)
    requires n >= 0
    requires StripRight(StripLeft(IntToString(n))) == IntToString(n)
    ensures ParseInt(IntToString(n)) == Some(n)
  {
    var s := IntToString(n);
    ParseDigitsNatToString(n);
    ParseUnsigned(s, n);
  }

  /** Digits with nothing to strip parse to their value. */
  lemma ParseUnsigned(s: string, v: nat)
    requires |s| > 0 && IsDigit(s[0]) && StripRight(StripLeft(s)) == s
    requires ParseDigits(s) == Some(v)
    ensures ParseInt(s) == Some(v)
  {
  }

  /** An ASCII string encodes to its code points. */
  lemma {:induction false} EncodeAscii(s: string)
    requires forall i :: 0 <= i < |s| ==> s[i] as int < 0x80
    ensures |Encode(s)| == |s|
    ensures forall i :: 0 <= i < |s| ==> Encode(s)[i] == s[i] as int
  {
    if |s| > 0 {
      EncodeAscii(s[1..]);
    }
  }

  /** `int(str(n).encode()) == n`: the round trip of CODE_LINE through a byte field. */
  lemma ParseIntBytesToString(n: int)
    ensures ParseIntBytes(Encode(IntToString(n))) == Some(n)
  {
    var s := IntToString(n);
    EncodeAscii(s);
    assert AsciiChars(Encode(s)) == s;
    ParseIntToString(n);
  }
}

=== FILE: utf8.dfy ===
/** UTF-8 as Python's codec handles it: `str.encode('utf-8')`, strict
    `bytes.decode()` and lossy `bytes.decode(errors="replace")`.

    Well-formedness follows Table 3-7 of the Unicode Standard (section 3.9):
    no overlong forms, no surrogates, nothing above U+10FFFF. Dafny's `char`
    is a Unicode scalar value, so every string can be encoded. */
module Utf8 {
  import opened Wrappers

  /** One byte of a Python `bytes` object. */
  type Byte = b: int | 0 <= b < 0x100

  const Nul: char := '\0'
  const ReplacementChar: char := '\U{FFFD}'

  predicate IsContinuation(b: Byte) {
    0x80 <= b <= 0xBF
  }

  /** Length of the well-formed sequence that a lead byte starts; 0 when it starts none. */
  function SequenceLength(b0: Byte): nat {
    if b0 <= 0x7F then 1
    else if 0xC2 <= b0 <= 0xDF then 2
    else if 0xE0 <= b0 <= 0xEF then 3
    else if 0xF0 <= b0 <= 0xF4 then 4
    else 0
  }

  /** Bounds of the byte allowed after lead byte `b0` (the narrowed ranges of Table 3-7). */
  function SecondLow(b0: Byte): Byte {
    if b0 == 0xE0 then 0xA0 else if b0 == 0xF0 then 0x90 else 0x80
  }

  function SecondHigh(b0: Byte): Byte {
    if b0 == 0xED then 0x9F else if b0 == 0xF4 then 0x8F else 0xBF
  }

  /** Length of the longest prefix of `b` that begins some well-formed
      sequence (the "maximal subpart" of section 3.9), at most the length
      its lead byte announces; 0 when `b` is empty or starts with a byte
      no sequence starts with. */
  function PrefixLength(b: seq<Byte>): (k: nat)
    ensures k <= |b|
    ensures |b| > 0 ==> k <= SequenceLength(b[0])
    ensures |b| > 0 && SequenceLength(b[0]) > 0 ==> k >= 1
  {
    if |b| == 0 then 0
    else
      var n := SequenceLength(b[0]);
      if n <= 1 then n
      else if |b| < 2 || !(SecondLow(b[0]) <= b[1] <= SecondHigh(b[0])) then 1
      else if n == 2 || |b| < 3 || !IsContinuation(b[2]) then 2
      else if n == 3 || |b| < 4 || !IsContinuation(b[3]) then 3
      else 4
  }

  /** `b` begins with one complete well-formed sequence. */
  predicate StartsWithScalar(b: seq<Byte>) {
    |b| > 0 && SequenceLength(b[0]) > 0 && PrefixLength(b) == SequenceLength(b[0])
  }

  /** The scalar value the well-formed sequence at the start of `b` encodes. */
  function ScalarAt(b: seq<Byte>): char
    requires StartsWithScalar(b)
  {
    var n := SequenceLength(b[0]);
    var b0 := b[0] as int;
    if n == 1 then b0 as char
    else if n == 2 then ((b0 - 0xC0) * 0x40 + Low(b[1])) as char
    else if n == 3 then ((b0 - 0xE0) * 0x1000 + Low(b[1]) * 0x40 + Low(b[2])) as char
    else ((b0 - 0xF0) * 0x40000 + Low(b[1]) * 0x1000 + Low(b[2]) * 0x40 + Low(b[3])) as char
  }

  /** The six payload bits of a continuation byte. */
  function Low(b: Byte): int {
    b as int - 0x80
  }

  /** The UTF-8 form of one scalar value. */
  function EncodeScalar(c: char): (r: seq<Byte>)
    ensures 1 <= |r| <= 4
  {
    var cp := c as int;
    if cp < 0x80 then [cp]
    else if cp < 0x800 then [0xC0 + cp / 0x40, 0x80 + cp % 0x40]
    else if cp < 0x10000 then [0xE0 + cp / 0x1000, 0x80 + (cp / 0x40) % 0x40, 0x80 + cp % 0x40]
    else [0xF0 + cp / 0x40000, 0x80 + (cp / 0x1000) % 0x40, 0x80 + (cp / 0x40) % 0x40, 0x80 + cp % 0x40]
  }

  /** `str.encode('utf-8')`. */
  function Encode(s: string): (b: seq<Byte>)
    ensures |b| >= |s|
  {
    if |s| == 0 then [] else EncodeScalar(s[0]) + Encode(s[1..])
  }

  /** Strict `bytes.decode()`: `None` stands for the `UnicodeDecodeError`. */
  function Decode(b: seq<Byte>): Option<string>
    decreases |b|
  {
    if |b| == 0 then Some([])
    else if !StartsWithScalar(b) then None
    else
      match Decode(b[SequenceLength(b[0])..])
      case None => None
      case Some(rest) => Some([ScalarAt(b)] + rest)
  }

  /** `bytes.decode(errors="replace")`: every maximal subpart of an
      ill-formed sequence, or a single byte no sequence starts with,
      becomes one U+FFFD. */
  function DecodeReplace(b: seq<Byte>): string
    decreases |b|
  {
    if |b| == 0 then []
    else if StartsWithScalar(b) then [ScalarAt(b)] + DecodeReplace(b[SequenceLength(b[0])..])
    else
      var skip := if PrefixLength(b) == 0 then 1 else PrefixLength(b);
      [ReplacementChar] + DecodeReplace(b[skip..])
  }

  /** Python's `s[:s.find('\0')]`, or all of `s` when it holds no NUL. */
  function TruncateAtNul(s: string): (t: string)
    ensures Nul !in t
    ensures t <= s
    ensures Nul !in s ==> t == s
    ensures |t| < |s| ==> s[|t|] == Nul
  {
    if |s| == 0 || s[0] == Nul then [] else [s[0]] + TruncateAtNul(s[1..])
  }

  /** What `ctypes.c_char_p(...).value` reads from a NUL-terminated buffer:
      the bytes before the first zero byte. */
  function TakeUntilNul(b: seq<Byte>): (r: seq<Byte>)
    ensures 0 !in r
    ensures r <= b
    ensures |r| < |b| ==> b[|r|] == 0
  {
    if |b| == 0 || b[0] == 0 then [] else [b[0]] + TakeUntilNul(b[1..])
  }

  // ---------------------------------------------------------------------
  // One scalar value

  lemma DivMod(x: int, d: int, q: int, r: int)
    requires d == 0x40 || d == 0x1000 || d == 0x40000
    requires x == q * d + r && 0 <= r < d
    ensures x / d == q && x % d == r
  {
    if d == 0x40 {
      assert x == q * 0x40 + r;
    } else if d == 0x1000 {
      assert x == q * 0x1000 + r;
    } else {
      assert x == q * 0x40000 + r;
    }
  }

  /** The encoding of a scalar is a well-formed sequence that decodes back to it. */
  lemma EncodeScalarWellFormed(c: char, rest: seq<Byte>)
    ensures var b := EncodeScalar(c) + rest;
      StartsWithScalar(b) && SequenceLength(b[0]) == |EncodeScalar(c)| && ScalarAt(b) == c
  {
    var cp := c as int;
    if cp < 0x80 {
    } else if cp < 0x800 {
      EncodeTwoWellFormed(c, rest);
    } else if cp < 0x10000 {
      EncodeThreeWellFormed(c, rest);
    } else {
      EncodeFourWellFormed(c, rest);
    }
  }

  lemma EncodeTwoWellFormed(c: char, rest: seq<Byte>)
    requires 0x80 <= c as int < 0x800
    ensures var b := EncodeScalar(c) + rest;
      StartsWithScalar(b) && SequenceLength(b[0]) == 2 && ScalarAt(b) == c
  {
    var cp := c as int;
    var b := EncodeScalar(c) + rest;
    DivMod(cp, 0x40, cp / 0x40, cp % 0x40);
    assert (b[0] as int - 0xC0) * 0x40 + Low(b[1]) == cp;
  }

  lemma EncodeThreeWellFormed(c: char, rest: seq<Byte>)
    requires 0x800 <= c as int < 0x10000
    ensures var b := EncodeScalar(c) + rest;
      StartsWithScalar(b) && SequenceLength(b[0]) == 3 && ScalarAt(b) == c
  {
    var cp := c as int;
    var b := EncodeScalar(c) + rest;
    var q := cp / 0x40;
    assert cp == q * 0x40 + cp % 0x40;
    assert q == (q / 0x40) * 0x40 + q % 0x40;
    assert cp / 0x1000 == q / 0x40;
    assert (b[0] as int - 0xE0) * 0x1000 + Low(b[1]) * 0x40 + Low(b[2]) == cp;
  }

  lemma EncodeFourWellFormed(c: char, rest: seq<Byte>)
    requires 0x10000 <= c as int
    ensures var b := EncodeScalar(c) + rest;
      StartsWithScalar(b) && SequenceLength(b[0]) == 4 && ScalarAt(b) == c
  {
    var cp := c as int;
    var b := EncodeScalar(c) + rest;
    var q := cp / 0x40;
    var q2 := q / 0x40;
    assert cp == q * 0x40 + cp % 0x40;
    assert q == q2 * 0x40 + q % 0x40;
    assert q2 == (q2 / 0x40) * 0x40 + q2 % 0x40;
    assert cp / 0x1000 == q2;
    assert cp / 0x40000 == q2 / 0x40;
    assert (b[0] as int - 0xF0) * 0x40000 + Low(b[1]) * 0x1000 + Low(b[2]) * 0x40 + Low(b[3]) == cp;
  }

  /** A well-formed sequence is the encoding of the scalar it decodes to. */
  lemma ScalarAtEncodes(b: seq<Byte>)
    requires StartsWithScalar(b)
    ensures EncodeScalar(ScalarAt(b)) == b[..SequenceLength(b[0])]
  {
    var n := SequenceLength(b[0]);
    if n == 2 {
      ScalarAtEncodesTwo(b);
    } else if n == 3 {
      ScalarAtEncodesThree(b);
    } else if n == 4 {
      ScalarAtEncodesFour(b);
    }
  }

  lemma ScalarAtEncodesTwo(b: seq<Byte>)
    requires StartsWithScalar(b) && SequenceLength(b[0]) == 2
    ensures EncodeScalar(ScalarAt(b)) == b[..2]
  {
    DivMod(ScalarAt(b) as int, 0x40, b[0] as int - 0xC0, Low(b[1]));
  }

  lemma ScalarAtEncodesThree(b: seq<Byte>)
    requires StartsWithScalar(b) && SequenceLength(b[0]) == 3
    ensures EncodeScalar(ScalarAt(b)) == b[..3]
  {
    var cp := ScalarAt(b) as int;
    var b0 := b[0] as int;
    DivMod(cp, 0x40, (b0 - 0xE0) * 0x40 + Low(b[1]), Low(b[2]));
    DivMod(cp / 0x40, 0x40, b0 - 0xE0, Low(b[1]));
    DivMod(cp, 0x1000, b0 - 0xE0, Low(b[1]) * 0x40 + Low(b[2]));
  }

  lemma ScalarAtEncodesFour(b: seq<Byte>)
    requires StartsWithScalar(b) && SequenceLength(b[0]) == 4
    ensures EncodeScalar(ScalarAt(b)) == b[..4]
  {
    var cp := ScalarAt(b) as int;
    var b0 := b[0] as int;
    var hi := (b0 - 0xF0) * 0x40 + Low(b[1]);
    DivMod(cp, 0x40, hi * 0x40 + Low(b[2]), Low(b[3]));
    DivMod(cp / 0x40, 0x40, hi, Low(b[2]));
    DivMod(cp, 0x1000, hi, Low(b[2]) * 0x40 + Low(b[3]));
    DivMod(cp / 0x1000, 0x40, b0 - 0xF0, Low(b[1]));
    DivMod(cp, 0x40000, b0 - 0xF0, Low(b[1]) * 0x1000 + Low(b[2]) * 0x40 + Low(b[3]));
  }

  /** Only NUL encodes to a sequence holding a zero byte; multi-byte forms use bytes >= 0x80. */
  lemma EncodeScalarZero(c: char)
    ensures 0 in EncodeScalar(c) <==> c == Nul
    ensures c == Nul ==> EncodeScalar(c) == [0]
  {
  }

  // ---------------------------------------------------------------------
  // Whole strings

  /** Round trip: strict decoding undoes encoding. */
  lemma {:induction false} DecodeEncode(s: string)
    ensures Decode(Encode(s)) == Some(s)
  {
    if |s| > 0 {
      var b := Encode(s);
      EncodeScalarWellFormed(s[0], Encode(s[1..]));
      assert b[SequenceLength(b[0])..] == Encode(s[1..]);
      DecodeEncode(s[1..]);
      assert [s[0]] + s[1..] == s;
    }
  }

  /** Strict decoding succeeds only on an encoding, and then it inverts it. */
  lemma {:induction false} EncodeDecode(b: seq<Byte>, s: string)
    requires Decode(b) == Some(s)
    ensures Encode(s) == b
    decreases |b|
  {
    if |b| > 0 {
      var n := SequenceLength(b[0]);
      DecodeStep(b);
      var rest := Decode(b[n..]).value;
      EncodeDecode(b[n..], rest);
      SplitJoin(b, n);
    }
  }

  lemma SplitJoin(b: seq<Byte>, n: nat)
    requires n <= |b|
    ensures b[..n] + b[n..] == b
  {}

  /** Encoding a strict decoding gives back its first sequence, then the
      encoding of the decoding of the rest. */
  lemma DecodeStep(b: seq<Byte>)
    requires |b| > 0 && Decode(b).Some?
    ensures 0 < SequenceLength(b[0]) <= |b| && Decode(b[SequenceLength(b[0])..]).Some?
    ensures var n := SequenceLength(b[0]);
      Encode(Decode(b).value) == b[..n] + Encode(Decode(b[n..]).value)
  {
    DecodeFirst(b);
    ScalarAtEncodes(b);
    EncodeCons(ScalarAt(b), Decode(b[SequenceLength(b[0])..]).value);
  }

  /** A strict decoding of non-empty bytes starts with the first scalar. */
  lemma DecodeFirst(b: seq<Byte>)
    requires |b| > 0 && Decode(b).Some?
    ensures StartsWithScalar(b) && Decode(b[SequenceLength(b[0])..]).Some?
    ensures Decode(b).value == [ScalarAt(b)] + Decode(b[SequenceLength(b[0])..]).value
  {}

  /** Encoding goes scalar by scalar. */
  lemma EncodeCons(c: char, rest: string)
    ensures Encode([c] + rest) == EncodeScalar(c) + Encode(rest)
  {
    assert ([c] + rest)[1..] == rest;
  }

  /** The bytes strict decoding accepts are exactly the encodings of strings. */
  lemma DecodeSucceedsIffEncoding(b: seq<Byte>)
    ensures Decode(b).Some? <==> exists s :: Encode(s) == b
  {
    if Decode(b).Some? {
      EncodeDecode(b, Decode(b).value);
    }
    if s :| Encode(s) == b {
      DecodeEncode(s);
    }
  }

  /** On well-formed input lossy decoding agrees with strict decoding. */
  lemma {:induction false} DecodeReplaceAgrees(b: seq<Byte>)
    requires Decode(b).Some?
    ensures DecodeReplace(b) == Decode(b).value
    decreases |b|
  {
    if |b| > 0 {
      DecodeReplaceAgrees(b[SequenceLength(b[0])..]);
    }
  }

  /** On ill-formed input lossy decoding shows at least one U+FFFD. */
  lemma {:induction false} DecodeReplaceMarksError(b: seq<Byte>)
    requires Decode(b).None?
    ensures ReplacementChar in DecodeReplace(b)
    decreases |b|
  {
    if StartsWithScalar(b) {
      var n := SequenceLength(b[0]);
      DecodeReplaceMarksError(b[n..]);
      assert DecodeReplace(b) == [ScalarAt(b)] + DecodeReplace(b[n..]);
    } else {
      assert DecodeReplace(b)[0] == ReplacementChar;
    }
  }

  /** Lossy decoding of an encoding gives back the string. */
  lemma DecodeReplaceEncode(s: string)
    ensures DecodeReplace(Encode(s)) == s
  {
    DecodeEncode(s);
    DecodeReplaceAgrees(Encode(s));
  }

  /** A NUL-terminated encoding read back as a C string stops at the first
      NUL of the string: exactly the encoding of the part before it. */
  lemma {:induction false} TakeUntilNulEncode(s: string, tail: seq<Byte>)
    requires |tail| > 0 && tail[0] == 0
    ensures TakeUntilNul(Encode(s) + tail) == Encode(TruncateAtNul(s))
  {
    if |s| == 0 {
    } else {
      EncodeScalarZero(s[0]);
      var e := EncodeScalar(s[0]);
      assert Encode(s) + tail == e + (Encode(s[1..]) + tail);
      if s[0] != Nul {
        TakeUntilNulAppend(e, Encode(s[1..]) + tail);
        TakeUntilNulEncode(s[1..], tail);
        assert TruncateAtNul(s) == [s[0]] + TruncateAtNul(s[1..]);
      }
    }
  }

  lemma {:induction false} TakeUntilNulAppend(a: seq<Byte>, b: seq<Byte>)
    requires 0 !in a
    ensures TakeUntilNul(a + b) == a + TakeUntilNul(b)
  {
    if |a| > 0 {
      assert (a + b)[1..] == a[1..] + b;
      TakeUntilNulAppend(a[1..], b);
      assert a == [a[0]] + a[1..];
    } else {
      assert a + b == b;
    }
  }
}

=== FILE: wrappers.dfy ===
/** Optional values and results with an error, as the bridge's Python code
    expresses them with `None` and with raised exceptions. */
module Wrappers {

  datatype Option<+T> = None | Some(value: T) {

    /** The value, or `default` when there is none (Python's `dict.get(k, default)`). */
    function GetOr(default: T): T {
      match this
      case Some(v) => v
      case None => default
    }
  }

  datatype Result<+T, +E> = Success(value: T) | Failure(error: E) {

    predicate IsFailure() {
      Failure?
    }

    function PropagateFailure<U>(): Result<U, E>
      requires Failure?
    {
      Failure(error)
    }

    function Extract(): T
      requires Success?
    {
      value
    }
  }
}
